=== FILE: README.md ===
# Passport authentication core in Dafny

This project models the authentication core of passport-next/passport, the
Node.js authentication middleware. The model covers:

- the `Authenticator` registry of strategies and its three handler chains
  (serializers, deserializers, auth-info transformers);
- the `initialize` middleware, which sets up per-request scratch state
  (`req._passport`), loads the login-session record and installs the identity
  helpers;
- the identity helpers `req.logIn`, `req.logOut`, `req.isAuthenticated` and
  `req.isUnauthenticated`;
- the session manager, which writes the serialized user into the host session;
- the built-in `session` strategy, which restores the user on later requests;
- the `authenticate` middleware: trying strategies in order, collecting
  failures, the default 401 denial with `WWW-Authenticate`, flash and session
  messages, redirects, `failWithError`, `assignProperty`, `authInfo`;
- `AuthenticationError`.

Every operation is a pure function. It maps a request (and an authenticator)
to the request as it leaves, plus an outcome: `next()`, `next(err)`, the
application's callback, a redirect, a response, a crash, or a hang.

JavaScript values are a small datatype (`JsValues.JsValue`) with JavaScript
truthiness. `req._passport.session` aliases an object stored in
`req.session[key]`. The model records where that object lives (`Http.RecordRef`)
instead of copying it, so a write through one name is seen through the other.
`Http.WellFormed` is the invariant that makes this sound: a linked record
really is an object in the host session. Every operation preserves it.

The three chain walkers are modelled as written, as the recursive `pass(i, err,
value)` closure (`Chains.Walk`). They are also given an independent reference
reading: the first handler that does not skip decides (`Chains.FirstDecisive`).
A proof shows the two agree on every chain. A loop method (`Chains.ResolveByScan`)
computes the same result by scanning.

Strategies are scripted. A strategy is modelled by the action it takes
(`success`, `fail`, `redirect`, `pass`, `error`, or none at all), except the
built-in session strategy, which is modelled in full. Handlers are functions
from their input to a reply: a callback, a return value, or a throw.

## Model

| member | source | states |
|---|---|---|
| Chains.WalkMatchesReference | lib/authenticator.js:286-315 | From any non-definitive point, the as-written `pass` walker computes what the first-decisive-handler reading computes on the remaining handlers |
| Chains.ResolveIsFirstDecisive | lib/authenticator.js:286-315 | `serializeUser`/`deserializeUser`/`transformAuthInfo` over a handler list equal the reference reading: skip handlers that decline, the first one that does not decides, exhaustion policy otherwise |
| Chains.FirstDecisiveAppend | lib/authenticator.js:294-303 | On the reference reading, appended handlers matter exactly when every earlier handler skipped |
| Chains.ChainAppend | lib/authenticator.js:294-303 | Registration order is evaluation order: a chain extended with more handlers behaves as the extension when all earlier handlers skip, and as the original otherwise |
| Chains.AllSkipExhausts | lib/authenticator.js:450-455 | When every handler skips, the chain's exhaustion policy decides (serialize/deserialize failure errors, or the untransformed info) |
| Chains.FirstDecisiveWins | lib/authenticator.js:350-370 | The first non-skipping handler's verdict is the chain's result; handlers after it are never consulted |
| Chains.SkippingHandlerIsInvisible | lib/authenticator.js:287-290 | Removing a handler that skips, anywhere in the chain, does not change the result |
| Chains.ReplyReading | lib/authenticator.js:305-314 | A 'pass' error is erased; any other truthy error decides with that error; a synchronous throw ends the walk with the thrown value, 'pass' included; returning without calling back leaves it pending |
| Chains.SerializeSentinels | lib/authenticator.js:288-297 | A serializer's 0 is a result; undefined, null, false and '' fall through to the next serializer |
| Chains.DeserializeSentinels | lib/authenticator.js:351-364 | A deserializer's null or false ends the chain at once with `(null, false)`; undefined and 0 fall through |
| Chains.TransformSentinels | lib/authenticator.js:442-477 | A one-parameter transformer's truthy return value is the transformed info; with no transformer, or all skipping, the info is kept as-is |
| Chains.EmptyChains | lib/authenticator.js:294-297 | With nothing registered, serialization and deserialization fail with their fixed messages and transformation returns the info |
| Chains.ResolveByScan | lib/authenticator.js:286-315 | A scan for the first non-skipping handler returns exactly what the recursive walker returns |
| Chains.AsPromise | lib/sessionmanager.js:50-51 | An awaited chain rejects exactly when it ends with a truthy error, resolves with its value otherwise, and stays pending when a handler never calls back |
| Authenticators.New | lib/authenticator.js:18-39 | A new authenticator has key 'passport', user property 'user', empty chains, and only the session strategy, registered as 'session' |
| Authenticators.Use | lib/authenticator.js:56-65 | `use(name, s)` throws exactly when the name is falsy; otherwise `name` maps to `s` and every other name keeps its strategy |
| Authenticators.UseOwnName | lib/authenticator.js:56-60 | `use(s)` registers the strategy under its own name and changes nothing else; an unnamed strategy throws the same error as `use('', s)` |
| Authenticators.Unuse | lib/authenticator.js:86-89 | `unuse(name)` removes that entry only; every other name keeps its strategy |
| Authenticators.UseUnuseLaws | lib/authenticator.js:56-89 | A second `use` under a name replaces the first; `unuse` undoes a `use` of a fresh name; `unuse` of an absent name changes nothing |
| Authenticators.Register | lib/authenticator.js:269-272 | Registering a handler appends it to that chain only and returns the new length |
| Authenticators.RegistrationOrder | lib/authenticator.js:269-272 | A handler registered later is consulted only when every earlier one skips |
| Authenticators.SetUserProperty | lib/authenticator.js:136-138 | The user property becomes the option when it is truthy and 'user' otherwise; nothing else changes |
| SessionManagers.NewSessionManager | lib/sessionmanager.js:22-31 | The constructor's two call forms; the key is `options.key` when truthy, 'passport' otherwise |
| SessionManagers.ManagerOf | lib/authenticator.js:38 | The authenticator's manager uses the authenticator's key and serializes through its serializer chain |
| SessionManagers.LogIn | lib/sessionmanager.js:48-70 | Serialization failure goes to the callback or rejects; otherwise the record (created when missing) gets `user`, is stored under the key, and the host session is created when missing; every other host key is untouched; missing scratch state or a primitive record rejects with a TypeError |
| SessionManagers.LogOut | lib/sessionmanager.js:84-91 | `user` is removed from the record, when there is one, and nothing else; the callback is always called |
| SessionManagers.LogInIdempotent | lib/sessionmanager.js:60-67 | A second login of the same user changes nothing |
| SessionManagers.LogOutUndoesLogIn | lib/sessionmanager.js:84-91 | Logout after login leaves the record as before the login minus `user`, still stored under the key |
| RequestHelpers.LogIn | lib/http/request.js:47-84 | The user property is assigned first; it throws synchronously exactly when a session is wanted without `initialize`; a rejected session login resets the property to null and reaches `done` or the promise |
| RequestHelpers.LogOut | lib/http/request.js:95-105 | The user property becomes null and the stored user is gone; `done` is called only when scratch state exists |
| RequestHelpers.AuthenticationFollowsLogIn | lib/http/request.js:115-132 | After a completed login the request is authenticated exactly when the user is truthy; after a failed login or any logout it is unauthenticated |
| RequestHelpers.LogInCompletes | lib/http/request.js:65-70 | When the manager stores the user, the login completes with the user in the property and the serialized user in the record |
| RequestHelpers.LogInThenLogOut | lib/http/request.js:95-105 | Login then logout leaves an unauthenticated request whose record keeps every other field |
| Initialization.Initialize | lib/middleware/initialize.js:64-81 | `next()`; fresh scratch state; the record is the host's object under the key when truthy; the helpers are installed; the result is well formed |
| Initialization.InitializeIdempotent | lib/middleware/initialize.js:65-71 | Running `initialize` twice is the same as running it once |
| SessionStrategy.Authenticate | lib/strategies/session.js:63-95 | Error without `initialize`; pass when no user is stored (0 counts as stored); a deserialization error goes to `error`; a truthy user sets only the user property; a falsy one deletes `user` from the record; then `pass` |
| SessionStrategy.RestoreSettles | lib/strategies/session.js:76-90 | Restoring a second time changes nothing |
| AuthErrors.AuthenticationError | lib/errors/authenticationerror.js:8-15 | Its name is 'AuthenticationError', its message the given text, its status the given status when truthy and 401 otherwise |
| Notices.FlashFor | lib/middleware/authenticate.js:158-172 | Which flash is shown: a string option is the message with the default type; `true` reads type and message from the strategy's report; an object supplies its own type and message with fallbacks; a number option throws; a non-string message shows nothing |
| Notices.FlashForReadsNormalizedOption | lib/middleware/authenticate.js:158-172 | The flash derivation agrees with a step-by-step reading of the option: normalise it (a string becomes `{ type, message }`, `type` defaults), then take `type || subject.type || default` and `message || subject.message || subject` |
| Notices.FlashKindIgnoresSubject | lib/middleware/authenticate.js:158-167 | A falsy option never flashes, whatever the subject; a string or object option fixes the flash type independently of the subject's `type` |
| Notices.MessageMatchesFlash | lib/middleware/authenticate.js:158-182 | For a string or `true` option, the session message is pushed exactly when the flash is shown, and with the same text |
| Notices.MessageFor | lib/middleware/authenticate.js:173-182 | Which session message is pushed: a string option itself, or for `true` the report's message; any other option pushes nothing |
| Notices.ShowFlash | lib/middleware/authenticate.js:169-171 | The flash is appended to the request's flashes, and a missing `req.flash` throws |
| Notices.AppendMessage | lib/middleware/authenticate.js:178-181 | The message is appended to `req.session.messages` (created when falsy); a missing host session or a non-array value throws; no other host key changes |
| Notices.Notify | lib/middleware/authenticate.js:158-182 | Flash first, then the message; exactly the requested flash is appended; the requested message is pushed after the earlier ones; the host session keeps its `save`, and nothing else about the request changes |
| Failures.FailureOf | lib/middleware/authenticate.js:354-362 | A number given as the challenge becomes the status |
| Failures.StatusFoldKeeps | lib/middleware/authenticate.js:195-196 | Once `rstatus` is truthy it no longer changes |
| Failures.StatusFoldFindsFirst | lib/middleware/authenticate.js:193-196 | `rstatus` is the first truthy failure status |
| Failures.StatusFoldAllFalsy | lib/middleware/authenticate.js:193-196 | With no truthy status, `rstatus` stays falsy |
| Failures.ResponseCodeIsFirstStatus | lib/middleware/authenticate.js:193-202 | The response status is the first truthy failure status |
| Failures.ResponseCodeDefaults | lib/middleware/authenticate.js:202 | With no truthy status the response status is 401 |
| Failures.StringChallengesMembers | lib/middleware/authenticate.js:195-200 | A string is among the `WWW-Authenticate` challenges exactly when some failure carried it as its challenge |
| Failures.StringChallengesAppend | lib/middleware/authenticate.js:197-199 | Each failure adds its challenge at the end when it is a string, and nothing otherwise |
| Failures.Challenges | lib/middleware/authenticate.js:147 | The callback's challenge list has one entry per failure, in order |
| Failures.Statuses | lib/middleware/authenticate.js:148 | The callback's status list has one entry per failure, in order |
| Dispatch.Configure | lib/middleware/authenticate.js:95-117 | A callback in the options position becomes the callback; missing options are `{}`; a single name is a one-element list and not multi |
| Dispatch.SessionRedirect | lib/middleware/authenticate.js:129-135 | The redirect goes to the URL, through `req.session.save` exactly when the host session has one |
| Dispatch.AllFailed | lib/middleware/authenticate.js:141-152 | With a callback: `(null, false, challenge, status)` of the first failure for a single name, else `(null, false, challenges, statuses)` in order; the callback is called exactly when given; without one, the default denial |
| Dispatch.FirstChallenge | lib/middleware/authenticate.js:155-156 | The subject of the failure notices is the first failure's challenge when truthy, and otherwise `{}` |
| Dispatch.Deny | lib/middleware/authenticate.js:155-186 | The failure notices come first; a notice that throws crashes with the request untouched; otherwise the failure ends as `Refuse` says |
| Dispatch.Refuse | lib/middleware/authenticate.js:183-210 | The failure redirect when set; otherwise the first truthy status or 401, `WWW-Authenticate` with the string challenges only on 401, then either the reason phrase as the body or an `AuthenticationError` with that phrase and `rstatus` handed to `next` |
| Dispatch.Complete | lib/middleware/authenticate.js:311-326 | `session.returnTo` wins over `successReturnToOrRedirect` and is deleted; then `successRedirect`; else `next()` |
| Dispatch.Succeed | lib/middleware/authenticate.js:261-305 | With a callback: `(null, user, info)`; otherwise the success notices, with a crash exactly when a notice throws, and then `Dispatch.Assign` on the notified request; with `assignProperty` that is the property set and `next()` without logging in |
| Dispatch.Assign | lib/middleware/authenticate.js:294-305 | After the notices: with `assignProperty` the user goes there and `next()` follows; otherwise `req.logIn` runs, a missing helper, a throw or a rejection goes to `next(err)`, and a completed login goes on to the auth info |
| Dispatch.Authorized | lib/middleware/authenticate.js:328-340 | `req.authInfo` is the transformed info unless `authInfo` is false; a transform error goes to `next` |
| Dispatch.Perform | lib/middleware/authenticate.js:431 | A scripted strategy takes its action on the request unchanged; the session strategy restores the user |
| Dispatch.Conclude | lib/middleware/authenticate.js:377-427 | `redirect` sets the status (302 by default) and `Location`; `pass` is `next()`; `error` goes to the callback or `next`; `success` is handled by `Succeed` |
| Dispatch.Attempt | lib/middleware/authenticate.js:213-228 | The callback is only ever called when one was given; the request stays well formed |
| Dispatch.Authenticate | lib/middleware/authenticate.js:213-232 | The middleware on one request; the callback is only called when given; well-formedness is preserved |
| Dispatch.FailingStep | lib/middleware/authenticate.js:354-364 | A failing strategy records its failure and the next name is attempted |
| Dispatch.FailuresAccumulate | lib/middleware/authenticate.js:354-364 | After a run of failing strategies the middleware is where it would be had it started there with those failures recorded |
| Dispatch.AllStrategiesFail | lib/middleware/authenticate.js:213-219 | When every named strategy fails, `allFailed` runs with all their failures in order |
| Dispatch.FirstDecisiveStrategyWins | lib/middleware/authenticate.js:213-232 | The first strategy that does not fail decides, whatever follows it |
| Dispatch.UnknownStrategyStops | lib/middleware/authenticate.js:224-228 | An unknown name is an error to `next`, even with a callback and after failures |
| Dispatch.EmptyNameEndsChain | lib/middleware/authenticate.js:214-219 | A falsy name ends the chain; later names are never tried |
| Dispatch.UnauthorizedWithChallenges | lib/middleware/authenticate.js:193-210 | Worked example for one fixed scenario: three challenge-only failures give 401, the string challenges in order, body 'Unauthorized' |
| Dispatch.FirstStatusWins | lib/middleware/authenticate.js:141-210 | Worked example for one fixed scenario: with statuses 400, 402 (as the challenge) and 403 the response is 400 'Bad Request' without challenges; a callback receives the challenges and statuses in order |
| Dispatch.SuccessLogsIn | lib/middleware/authenticate.js:300-340 | A success with default options logs the user in: user property, serialized user in the record, `req.authInfo`, `next()` |
| Dispatch.AssignPropertySkipsLogin | lib/middleware/authenticate.js:294-298 | With `assignProperty` the user is assigned there and nothing else happens before `next()` |
| Dispatch.AuthInfoFalseSkipsTransformers | lib/middleware/authenticate.js:328-340 | With `authInfo: false` the transformers are never consulted |
| Passport.Initialize | lib/authenticator.js:136-141 | `initialize({ userProperty })` sets the user property, then the middleware sets up the request |
| Passport.Authenticate | lib/authenticator.js:175-177 | `authenticate(name, options, callback)` is the middleware with that configuration |
| Passport.AuthorizeOptions | lib/authenticator.js:200-202 | `authorize` forces `assignProperty` to 'account' in the options it hands on |
| Passport.Authorize | lib/authenticator.js:200-206 | `authorize` never calls a callback that was not given, and preserves well-formedness |
| Passport.Session | lib/authenticator.js:237-239 | `session(options)` calls a callback only when a function is passed as the options, and preserves well-formedness |
| Passport.SessionOptionsPickOnlyCallback | lib/authenticator.js:237-239 | With the built-in session strategy, an options object makes no difference, and a function in the options position receives the error that would otherwise go to `next(err)` |
| Passport.AuthorizeKeepsLogin | lib/authenticator.js:200-206 | A successful authorization puts the user in `req.account` and leaves the login untouched |
| Passport.LoginSurvivesAcrossRequests | lib/strategies/session.js:72-90 | A user logged in on one request is restored by `initialize` and `session()` on a later request with the same host session, or dropped when the deserializers return a falsy user |

## Left out

- Framework adaptation (`framework()`, lib/framework/connect.js) and the module's exports (lib/index.js) are plumbing only. `Passport` calls the connect adapter's functions directly.
- The three chain walkers have no `Promise` code, yet `sessionmanager.js`, `strategies/session.js` and `authenticate.js` `await` them without passing `done`. Taken literally, the outcome depends on timing. When the walk reaches `done` synchronously, the call throws a TypeError because `done` is not a function. This happens when a handler calls back synchronously, when a handler throws, and when the chain is empty or exhausted. The `await` then rejects. When a handler calls back later, the walker returns undefined at once, so the `await` resolves with undefined. The session strategy (lib/strategies/session.js:79-85) then deletes the stored `user` and calls `pass()`. The later callback throws an uncaught TypeError. The model uses the evident intent instead: `Chains.AsPromise` turns the chain's result into a promise.
- The request handed to three-parameter handlers is not modelled. Handlers see only their input, which keeps the request datatype non-recursive.
- Http.ReasonPhrase: covers only 400 to 403, the codes the failure path produces in the scenarios modelled. Other codes have no body text in the model.
- Request properties such as `req.user` are kept apart from the request's own members (`_passport`, `session`, `flash`), so an `assignProperty` of 'session' does not clobber the host session.
- An array stored under the session key is treated like a primitive record. JavaScript would let `user` be set on it.
- `sessionManager(mgr)`, which installs a custom session manager, is not modelled. The authenticator always uses the manager it builds.
- Strategies are found by own name only. Names inherited from the object prototype (`toString`, `constructor`, ...) are not modelled.
- Handlers that call their callback more than once, or call back and then throw, are not modelled. A reply is exactly one of callback, return or throw.
- The per-request strategy object (`Object.create(prototype)`) is not modelled. Strategy actions are values, not methods bound to the request.
- `authenticate` mutates the caller's flash option objects (it assigns `flash.type`). Each request reads the options as given.
- Dispatch.Deny, Dispatch.Succeed: when a notice throws (a `Crash`), the model reports the request as it was before any notice. JavaScript may already have shown the flash.
- The session strategy always deserializes through the chains of the authenticator running the middleware. A strategy object shared between authenticators is not modelled.
- `SessionManagers.LogIn`: a record that `initialize` loaded from another key is also rewritten there, since it is the same object. The model writes both keys.
- `authorize` with a callback in the options position: the forced `assignProperty` is lost, because `authenticate` replaces function options with `{}`. The model follows the code.
- A failure or success flash requested while the request has no `req.flash` throws a TypeError (lib/middleware/authenticate.js:169-170). The model reports it as a `Crash`.
- A chain handler that throws the string 'pass' ends the chain with that value as its error (lib/authenticator.js:312-314). A 'pass' handed to the handler's callback is erased instead, and the walk moves to the next handler (lib/authenticator.js:288-290).
- Numbers are integers: there is no NaN, no fraction and no -0. Nothing in the core does arithmetic, but a NaN stored user, which fails both `su || su === 0` tests (lib/strategies/session.js:76), cannot be expressed.
- Timing, I/O and the host framework's `res` object are abstracted into `Http.Outcome`. The model does not simulate responses, headers or the event loop.

=== FILE: authenticate.dfy ===
/**
 * The authenticate middleware (lib/middleware/authenticate.js): tries the
 * named strategies in order, accumulating failures, and turns the first
 * decisive action into a response, a login, or a call to `next`.
 */
module Dispatch {
  import opened JsValues
  import opened Chains
  import opened Authenticators
  import opened Http
  import opened Failures
  import opened Notices
  import opened AuthErrors
  import SessionStrategy
  import SessionManagers
  import RequestHelpers

  /** The options the middleware reads; absent options are undefined (`assignProperty` is "" when absent). */
  datatype Options = Options(
    successRedirect: JsValue,
    successReturnToOrRedirect: JsValue,
    successMessage: JsValue,
    successFlash: JsValue,
    failureRedirect: JsValue,
    failureMessage: JsValue,
    failureFlash: JsValue,
    failWithError: JsValue,
    assignProperty: string,
    authInfo: JsValue,
    session: JsValue)

  const NoOptions: Options := Options(Undefined, Undefined, Undefined, Undefined, Undefined,
                                      Undefined, Undefined, Undefined, "", Undefined, Undefined)

  /** The `name` argument: one strategy name, or an array of them. */
  datatype NameArg = One(name: string) | Many(names: seq<string>)

  /** The `options` argument: given, omitted, or the callback passed in its place. */
  datatype OptionsArg = Given(options: Options) | Omitted | CallbackInstead

  /** What the middleware closes over. A name "" stands for a falsy entry. */
  datatype Config = Config(names: seq<string>, multi: bool, options: Options, callback: bool)

  /** `authenticate(passport, name, options, callback)` */
  function Configure(name: NameArg, options: OptionsArg, callback: bool): (c: Config)
    ensures c.multi <==> name.Many?
    ensures name.One? ==> c.names == [name.name]
    ensures name.Many? ==> c.names == name.names
    ensures c.callback <==> callback || options.CallbackInstead?
    ensures c.options == (if options.Given? then options.options else NoOptions)
  {
    var names := if name.One? then [name.name] else name.names;
    Config(names, name.Many?, if options.Given? then options.options else NoOptions, callback || options.CallbackInstead?)
  }

  function UnknownStrategy(name: string): JsValue {
    ErrorValue("Unknown authentication strategy \"" + name + "\"")
  }

  const NoLogIn: JsValue := TypeErrorValue("req.logIn is not a function")

  /** The local `redirect(url)`: through `req.session.save` when the host session has one. */
  function SessionRedirect(url: JsValue, req: Request): (o: Outcome)
    ensures o.Redirected? && o.url == url
    ensures o.savedFirst <==> req.session.Some? && req.session.value.canSave
  {
    Redirected(url, req.session.Some? && req.session.value.canSave)
  }

  /** `allFailed()`: every strategy failed, or the name list ran out. */
  function AllFailed(cfg: Config, fs: seq<Failure>, req: Request): (r: Run)
    // with a callback: the single failure, or the lists of challenges and statuses
    ensures (cfg.callback && !cfg.multi && |fs| > 0) ==>
              r == Run(Called([Null, Bool(false), fs[0].challenge, fs[0].status]), req)
    ensures (cfg.callback && (cfg.multi || |fs| == 0)) ==>
              r == Run(Called([Null, Bool(false), Arr(Challenges(fs)), Arr(Statuses(fs))]), req)
    ensures r.outcome.Called? <==> cfg.callback
    // without one: the default denial
    ensures !cfg.callback ==> r == Deny(cfg.options, fs, req)
    ensures WellFormed(req) ==> WellFormed(r.req)
  {
    if cfg.callback then
      if !cfg.multi && |fs| > 0 then Run(Called([Null, Bool(false), fs[0].challenge, fs[0].status]), req)
      else Run(Called([Null, Bool(false), Arr(Challenges(fs)), Arr(Statuses(fs))]), req)
    else Deny(cfg.options, fs, req)
  }

  /** The subject of the failure notices: the first failure's challenge, or `{}`. */
  function FirstChallenge(fs: seq<Failure>): (v: JsValue)
    ensures |fs| > 0 && Truthy(fs[0].challenge) ==> v == fs[0].challenge
    ensures !(|fs| > 0 && Truthy(fs[0].challenge)) ==> v == EmptyObject
    ensures Truthy(v)
  {
    if |fs| > 0 then Or(fs[0].challenge, EmptyObject) else EmptyObject
  }

  /** The rest of `allFailed()` without a callback: the notices about the first failure, then `Refuse`. */
  function Deny(opts: Options, fs: seq<Failure>, req: Request): (r: Run)
    ensures r.outcome.Crash? <==> Notify(req, opts.failureFlash, opts.failureMessage, FirstChallenge(fs), "error").Throws?
    ensures r.outcome.Crash? ==> r.req == req
    ensures !r.outcome.Crash? ==>
              && Notify(req, opts.failureFlash, opts.failureMessage, FirstChallenge(fs), "error") == Ok(r.req)
              && r.outcome == Refuse(opts, fs, r.req).outcome
    ensures WellFormed(req) ==> WellFormed(r.req)
  {
    match Notify(req, opts.failureFlash, opts.failureMessage, FirstChallenge(fs), "error")
    case Throws(e) => Run(Crash(e), req)
    case Ok(req1) => Refuse(opts, fs, req1)
  }

  /**
   * How the failure ends once the notices are out: the failure redirect, or
   * the status (the first truthy one, 401 otherwise) with the string
   * challenges on a 401, as a response or as an `AuthenticationError` handed
   * to `next`.
   */
  function Refuse(opts: Options, fs: seq<Failure>, req: Request): (r: Run)
    ensures r.req == req
    ensures Truthy(opts.failureRedirect) ==> r.outcome == SessionRedirect(opts.failureRedirect, req)
    ensures !Truthy(opts.failureRedirect) ==>
              var code := ResponseCode(fs);
              var header := if code == Num(401) then StringChallenges(fs) else [];
              && (Truthy(opts.failWithError) ==>
                    r.outcome == DenyWithError(code, header, AuthenticationError(ReasonPhrase(code), ResponseStatus(fs))))
              && (!Truthy(opts.failWithError) ==> r.outcome == Respond(code, header, ReasonPhrase(code)))
  {
    if Truthy(opts.failureRedirect) then Run(SessionRedirect(opts.failureRedirect, req), req)
    else
      var rstatus := ResponseStatus(fs);
      var code := Or(rstatus, Num(401));
      var header := if code == Num(401) then StringChallenges(fs) else [];
      if Truthy(opts.failWithError) then
        Run(DenyWithError(code, header, AuthenticationError(ReasonPhrase(code), rstatus)), req)
      else
        Run(Respond(code, header, ReasonPhrase(code)), req)
  }

  /** `complete()`: the remembered return URL, the success redirect, or `next()`. */
  function Complete(opts: Options, req: Request): (r: Run)
    ensures Truthy(opts.successReturnToOrRedirect) && Truthy(HostValue(req, "returnTo")) ==>
              && r.outcome == SessionRedirect(HostValue(req, "returnTo"), req)
              && HostValue(r.req, "returnTo") == Undefined
              && (forall k :: k != "returnTo" ==> HostValue(r.req, k) == HostValue(req, k))
    ensures Truthy(opts.successReturnToOrRedirect) && !Truthy(HostValue(req, "returnTo")) ==>
              r == Run(SessionRedirect(opts.successReturnToOrRedirect, req), req)
    ensures !Truthy(opts.successReturnToOrRedirect) && Truthy(opts.successRedirect) ==>
              r == Run(SessionRedirect(opts.successRedirect, req), req)
    ensures !Truthy(opts.successReturnToOrRedirect) && !Truthy(opts.successRedirect) ==> r == Run(Next, req)
    ensures r.req.props == req.props && SessionUser(r.req) == SessionUser(req)
    ensures WellFormed(req) ==> WellFormed(r.req)
  {
    if Truthy(opts.successReturnToOrRedirect) then
      if req.session.Some? && Truthy(HostValue(req, "returnTo")) then
        var req' := DeleteHostKey(req, "returnTo");
        Run(SessionRedirect(HostValue(req, "returnTo"), req'), req')
      else
        Run(SessionRedirect(opts.successReturnToOrRedirect, req), req)
    else if Truthy(opts.successRedirect) then
      Run(SessionRedirect(opts.successRedirect, req), req)
    else
      Run(Next, req)
  }

  /** `success(user, info)` */
  function Succeed(a: Authenticator, cfg: Config, user: JsValue, info: JsValue, req: Request): (r: Run)
    ensures cfg.callback ==> r == Run(Called([Null, user, info]), req)
    ensures !cfg.callback ==> !r.outcome.Called?
    ensures (!cfg.callback && cfg.options.assignProperty != "" && !r.outcome.Crash?) ==>
              && r.outcome == Next
              && Prop(r.req, cfg.options.assignProperty) == user
              && SessionUser(r.req) == SessionUser(req)
              && r.req.passport == req.passport
    ensures r.outcome.Crash? ==> r.req == req
    // without a callback: the success notices, then `Assign` on the notified request
    ensures !cfg.callback ==>
              var n := Notify(req, cfg.options.successFlash, cfg.options.successMessage, Or(info, EmptyObject), "success");
              && (r.outcome.Crash? <==> n.Throws?)
              && (n.Ok? ==> r == Assign(a, cfg.options, user, Or(info, EmptyObject), n.value))
    ensures WellFormed(req) ==> WellFormed(r.req)
  {
    if cfg.callback then Run(Called([Null, user, info]), req)
    else
      var opts := cfg.options;
      var info' := Or(info, EmptyObject);
      match Notify(req, opts.successFlash, opts.successMessage, info', "success")
      case Throws(e) => Run(Crash(e), req)
      case Ok(req1) => Assign(a, opts, user, info', req1)
  }

  /**
   * The rest of `success` once the notices are out: assign the user to
   * `assignProperty` and call `next()`, or log the user in and go on to the
   * auth info; a login that throws or rejects goes to `next(err)`.
   */
  function Assign(a: Authenticator, opts: Options, user: JsValue, info: JsValue, req: Request): (r: Run)
    ensures opts.assignProperty != "" ==> r == Run(Next, SetProp(req, opts.assignProperty, user))
    ensures (opts.assignProperty == "" && !req.helpers) ==> r == Run(NextError(NoLogIn), req)
    ensures (opts.assignProperty == "" && req.helpers) ==>
              var (req2, signal) := RequestHelpers.LogIn(req, user, opts.session, false);
              && (signal == Returns ==> r == Authorized(a, opts, info, req2))
              && ((signal.ThrowsNow? || signal.Rejects?) ==> r == Run(NextError(signal.err), req2))
    ensures !r.outcome.Called? && !r.outcome.Crash?
    ensures WellFormed(req) ==> WellFormed(r.req)
  {
    if opts.assignProperty != "" then Run(Next, SetProp(req, opts.assignProperty, user))
    else if !req.helpers then Run(NextError(NoLogIn), req)
    else
      var (req2, signal) := RequestHelpers.LogIn(req, user, opts.session, false);
      match signal
      case ThrowsNow(e) => Run(NextError(e), req2)
      case Rejects(e) => Run(NextError(e), req2)
      case Returns => Authorized(a, opts, info, req2)
      case _ => Run(Hung, req2)
  }

  /** After the login: `req.authInfo` from the transformer chain unless `authInfo` is false, then `complete()`. */
  function Authorized(a: Authenticator, opts: Options, info: JsValue, req: Request): (r: Run)
    ensures opts.authInfo == Bool(false) ==> r == Complete(opts, req)
    ensures opts.authInfo != Bool(false) ==>
              match AsPromise(Resolve(TransformChain, a.transformers, info))
              case Pending => r == Run(Hung, req)
              case Rejected(e) => r == Run(NextError(e), req)
              case Resolved(t) =>
                && r == Complete(opts, SetProp(req, "authInfo", t))
                && Prop(r.req, "authInfo") == t
    ensures SessionUser(r.req) == SessionUser(req)
    ensures WellFormed(req) ==> WellFormed(r.req)
  {
    if opts.authInfo == Bool(false) then Complete(opts, req)
    else
      match AsPromise(Resolve(TransformChain, a.transformers, info))
      case Pending => Run(Hung, req)
      case Rejected(e) => Run(NextError(e), req)
      case Resolved(t) => Complete(opts, SetProp(req, "authInfo", t))
  }

  /** A strategy's `authenticate(req, options)`: the action it takes and the request as it leaves it. */
  function Perform(a: Authenticator, s: Strategy, req: Request): (r: SessionStrategy.Acted)
    ensures s.Scripted? ==> r == SessionStrategy.Acted(s.action, req)
    ensures s.SessionRestore? ==> r == SessionStrategy.Restore(a, req)
    ensures WellFormed(req) ==> WellFormed(r.req)
  {
    match s
    case Scripted(_, act) => SessionStrategy.Acted(act, req)
    case SessionRestore => SessionStrategy.Restore(a, req)
  }

  /** How a decisive (non-failing) action ends the middleware. */
  function Conclude(a: Authenticator, cfg: Config, action: Action, req: Request): (r: Run)
    requires !action.Fail?
    ensures action.Redirect? ==> r == Run(RawRedirect(Or(action.status, Num(302)), action.url), req)
    ensures action.Pass? ==> r == Run(Next, req)
    ensures action.Error? ==> r == Run(if cfg.callback then Called([action.err]) else NextError(action.err), req)
    ensures action.Silent? ==> r == Run(Hung, req)
    ensures action.Success? ==> r == Succeed(a, cfg, action.user, action.info, req)
    ensures WellFormed(req) ==> WellFormed(r.req)
  {
    match action
    case Success(u, info) => Succeed(a, cfg, u, info, req)
    case Redirect(url, status) => Run(RawRedirect(Or(status, Num(302)), url), req)
    case Pass => Run(Next, req)
    case Error(e) => Run(if cfg.callback then Called([e]) else NextError(e), req)
    case Silent => Run(Hung, req)
  }

  /** `attempt(i)`, with `fs` the failures accumulated so far. */
  function Attempt(a: Authenticator, cfg: Config, i: nat, fs: seq<Failure>, req: Request): (r: Run)
    ensures r.outcome.Called? ==> cfg.callback
    ensures WellFormed(req) ==> WellFormed(r.req)
    decreases |cfg.names| - i
  {
    if i >= |cfg.names| || cfg.names[i] == "" then AllFailed(cfg, fs, req)
    else
      match StrategyOf(a, cfg.names[i])
      case None => Run(NextError(UnknownStrategy(cfg.names[i])), req)
      case Some(s) =>
        var acted := Perform(a, s, req);
        if acted.action.Fail? then
          Attempt(a, cfg, i + 1, fs + [FailureOf(acted.action.challenge, acted.action.status)], acted.req)
        else
          Conclude(a, cfg, acted.action, acted.req)
  }

  /** The middleware on one request. */
  function Authenticate(a: Authenticator, cfg: Config, req: Request): (r: Run)
    ensures r.outcome.Called? ==> cfg.callback
    ensures WellFormed(req) ==> WellFormed(r.req)
  {
    Attempt(a, cfg, 0, [], req)
  }

  // ---------------------------------------------------------------------------
  // Running through failing strategies
  // ---------------------------------------------------------------------------

  /** The strategy registered under `name` is a scripted one that fails. */
  predicate Failing(a: Authenticator, name: string) {
    && name != ""
    && StrategyOf(a, name).Some?
    && StrategyOf(a, name).value.Scripted?
    && StrategyOf(a, name).value.action.Fail?
  }

  /** The failure the strategy registered under `name` records. */
  function FailureFrom(a: Authenticator, name: string): Failure
    requires Failing(a, name)
  {
    var act := StrategyOf(a, name).value.action;
    FailureOf(act.challenge, act.status)
  }

  /** The failures a run of failing strategies records, in order. */
  function Recorded(a: Authenticator, names: seq<string>): (fs: seq<Failure>)
    requires forall k :: 0 <= k < |names| ==> Failing(a, names[k])
    ensures |fs| == |names|
    ensures forall k :: 0 <= k < |names| ==> Failing(a, names[k]) && fs[k] == FailureFrom(a, names[k])
  {
    if |names| == 0 then [] else [FailureFrom(a, names[0])] + Recorded(a, names[1..])
  }

  /** One failing strategy: its failure is recorded and the next name is attempted. */
  lemma FailingStep(a: Authenticator, cfg: Config, i: nat, fs: seq<Failure>, req: Request)
    requires i < |cfg.names| && Failing(a, cfg.names[i])
    ensures Attempt(a, cfg, i, fs, req) == Attempt(a, cfg, i + 1, fs + [FailureFrom(a, cfg.names[i])], req)
  {
  }

  /**
   * Failing strategies only add their failure and hand over to the next name:
   * after a run of them the middleware is where it would be had it started
   * there with those failures recorded.
   */
  lemma {:induction false} FailuresAccumulate(a: Authenticator, cfg: Config, i: nat, j: nat, fs: seq<Failure>, req: Request)
    requires i <= j <= |cfg.names|
    requires forall k :: i <= k < j ==> Failing(a, cfg.names[k])
    ensures Attempt(a, cfg, i, fs, req) == Attempt(a, cfg, j, fs + Recorded(a, cfg.names[i..j]), req)
    decreases j - i
  {
    if i == j {
      assert fs + Recorded(a, cfg.names[i..j]) == fs;
    } else {
      var f := FailureFrom(a, cfg.names[i]);
      FailingStep(a, cfg, i, fs, req);
      FailuresAccumulate(a, cfg, i + 1, j, fs + [f], req);
      RecordedSplit(a, cfg.names, i, j, fs);
    }
  }

  /** Peeling the first failure off a recorded run. */
  lemma RecordedSplit(a: Authenticator, names: seq<string>, i: nat, j: nat, fs: seq<Failure>)
    requires i < j <= |names|
    requires forall k :: i <= k < j ==> Failing(a, names[k])
    ensures fs + [FailureFrom(a, names[i])] + Recorded(a, names[i + 1..j]) == fs + Recorded(a, names[i..j])
  {
    var run := names[i..j];
    assert run[0] == names[i];
    assert run[1..] == names[i + 1..j];
    assert Recorded(a, run) == [FailureFrom(a, names[i])] + Recorded(a, names[i + 1..j]);
  }

  /** When every named strategy fails, the middleware ends in `allFailed` with all their failures. */
  lemma AllStrategiesFail(a: Authenticator, cfg: Config, req: Request)
    requires forall k :: 0 <= k < |cfg.names| ==> Failing(a, cfg.names[k])
    ensures Authenticate(a, cfg, req) == AllFailed(cfg, Recorded(a, cfg.names), req)
  {
    FailuresAccumulate(a, cfg, 0, |cfg.names|, [], req);
    assert cfg.names[0..|cfg.names|] == cfg.names;
    assert [] + Recorded(a, cfg.names) == Recorded(a, cfg.names);
  }

  /**
   * The first strategy that does not fail decides: its action is concluded
   * on the request as it left it, whatever names follow and whatever failed
   * before.
   */
  lemma FirstDecisiveStrategyWins(a: Authenticator, cfg: Config, j: nat, req: Request)
    requires j < |cfg.names| && cfg.names[j] != ""
    requires forall k :: 0 <= k < j ==> Failing(a, cfg.names[k])
    requires StrategyOf(a, cfg.names[j]).Some?
    requires !Perform(a, StrategyOf(a, cfg.names[j]).value, req).action.Fail?
    ensures var acted := Perform(a, StrategyOf(a, cfg.names[j]).value, req);
            Authenticate(a, cfg, req) == Conclude(a, cfg, acted.action, acted.req)
  {
    FailuresAccumulate(a, cfg, 0, j, [], req);
  }

  /** An unknown name is an error handed to `next`, even with a callback and after failures. */
  lemma UnknownStrategyStops(a: Authenticator, cfg: Config, j: nat, req: Request)
    requires j < |cfg.names| && cfg.names[j] != ""
    requires forall k :: 0 <= k < j ==> Failing(a, cfg.names[k])
    requires StrategyOf(a, cfg.names[j]).None?
    ensures Authenticate(a, cfg, req) == Run(NextError(UnknownStrategy(cfg.names[j])), req)
  {
    FailuresAccumulate(a, cfg, 0, j, [], req);
  }

  /** A falsy name ends the chain: the names after it are never tried. */
  lemma EmptyNameEndsChain(a: Authenticator, cfg: Config, j: nat, req: Request)
    requires j < |cfg.names| && cfg.names[j] == ""
    requires forall k :: 0 <= k < j ==> Failing(a, cfg.names[k])
    ensures Authenticate(a, cfg, req) == AllFailed(cfg, Recorded(a, cfg.names[..j]), req)
  {
    FailuresAccumulate(a, cfg, 0, j, [], req);
    assert cfg.names[0..j] == cfg.names[..j];
    assert [] + Recorded(a, cfg.names[..j]) == Recorded(a, cfg.names[..j]);
  }

  // ---------------------------------------------------------------------------
  // The denial the tests describe
  // ---------------------------------------------------------------------------

  function Failer(name: string, challenge: JsValue, status: JsValue): Strategy {
    Scripted(name, Fail(challenge, status))
  }

  /** An authenticator with three failing strategies registered under 'basic', 'no-challenge' and the third name. */
  function ThreeFailers(third: string, c1: JsValue, s1: JsValue, c2: JsValue, s2: JsValue, c3: JsValue, s3: JsValue): Authenticator {
    New().(strategies := New().strategies["basic" := Failer("basic", c1, s1)]
                                         ["no-challenge" := Failer("no-challenge", c2, s2)]
                                         [third := Failer(third, c3, s3)])
  }

  /** The three strategies of `ThreeFailers` all fail, and record their failures in order. */
  lemma ThreeFailersRecord(third: string, c1: JsValue, s1: JsValue, c2: JsValue, s2: JsValue, c3: JsValue, s3: JsValue)
    requires third != "" && third != "basic" && third != "no-challenge"
    ensures var a := ThreeFailers(third, c1, s1, c2, s2, c3, s3);
            var names := ["basic", "no-challenge", third];
            && (forall k :: 0 <= k < |names| ==> Failing(a, names[k]))
            && Recorded(a, names) == [FailureOf(c1, s1), FailureOf(c2, s2), FailureOf(c3, s3)]
  {
    var a := ThreeFailers(third, c1, s1, c2, s2, c3, s3);
    var names := ["basic", "no-challenge", third];
    assert Failing(a, names[0]) && Failing(a, names[1]) && Failing(a, names[2]);
    assert names[1..][1..] == [third];
    assert names[1..] == ["no-challenge", third];
  }

  /**
   * Three strategies that fail with challenges and no status: 401, the
   * string challenges in order as `WWW-Authenticate`, body 'Unauthorized'.
   */
  lemma UnauthorizedWithChallenges(req: Request)
    ensures var a := ThreeFailers("digest", Str("BASIC challenge"), Undefined, Undefined, Undefined, Str("DIGEST challenge"), Undefined);
            var cfg := Configure(Many(["basic", "no-challenge", "digest"]), Omitted, false);
            Authenticate(a, cfg, req) == Run(Respond(Num(401), ["BASIC challenge", "DIGEST challenge"], Some("Unauthorized")), req)
  {
    var a := ThreeFailers("digest", Str("BASIC challenge"), Undefined, Undefined, Undefined, Str("DIGEST challenge"), Undefined);
    var cfg := Configure(Many(["basic", "no-challenge", "digest"]), Omitted, false);
    ThreeFailersRecord("digest", Str("BASIC challenge"), Undefined, Undefined, Undefined, Str("DIGEST challenge"), Undefined);
    AllStrategiesFail(a, cfg, req);
    var fs := [Failure(Str("BASIC challenge"), Undefined), Failure(Undefined, Undefined), Failure(Str("DIGEST challenge"), Undefined)];
    ChallengeOnlyDenial(fs, req);
  }

  /** The denial for those three failures, with default options. */
  lemma ChallengeOnlyDenial(fs: seq<Failure>, req: Request)
    requires fs == [Failure(Str("BASIC challenge"), Undefined), Failure(Undefined, Undefined), Failure(Str("DIGEST challenge"), Undefined)]
    ensures AllFailed(Configure(Many(["basic", "no-challenge", "digest"]), Omitted, false), fs, req)
            == Run(Respond(Num(401), ["BASIC challenge", "DIGEST challenge"], Some("Unauthorized")), req)
  {
    ResponseCodeDefaults(fs);
    assert StringChallenges(fs[2..]) == ["DIGEST challenge"];
    assert StringChallenges(fs[1..]) == ["DIGEST challenge"];
    assert Notify(req, Undefined, Undefined, FirstChallenge(fs), "error") == Ok(req);
  }

  /**
   * With statuses 400, 402 (given as the challenge) and 403, the first one
   * wins, and a status other than 401 sends no `WWW-Authenticate`; with a
   * callback, the statuses arrive as a list in order.
   */
  lemma FirstStatusWins(req: Request)
    ensures var a := ThreeFailers("bearer", Str("BASIC challenge"), Num(400), Num(402), Undefined, Str("BEARER challenge"), Num(403));
            var names := Many(["basic", "no-challenge", "bearer"]);
            && Authenticate(a, Configure(names, Omitted, false), req) == Run(Respond(Num(400), [], Some("Bad Request")), req)
            && Authenticate(a, Configure(names, Omitted, true), req)
               == Run(Called([Null, Bool(false), Arr([Str("BASIC challenge"), Undefined, Str("BEARER challenge")]),
                                Arr([Num(400), Num(402), Num(403)])]), req)
  {
    var a := ThreeFailers("bearer", Str("BASIC challenge"), Num(400), Num(402), Undefined, Str("BEARER challenge"), Num(403));
    var names := Many(["basic", "no-challenge", "bearer"]);
    ThreeFailersRecord("bearer", Str("BASIC challenge"), Num(400), Num(402), Undefined, Str("BEARER challenge"), Num(403));
    AllStrategiesFail(a, Configure(names, Omitted, false), req);
    AllStrategiesFail(a, Configure(names, Omitted, true), req);
    var fs := [Failure(Str("BASIC challenge"), Num(400)), Failure(Undefined, Num(402)), Failure(Str("BEARER challenge"), Num(403))];
    StatusDenial(fs, req);
  }

  /** The denial and the callback arguments for those three failures. */
  lemma StatusDenial(fs: seq<Failure>, req: Request)
    requires fs == [Failure(Str("BASIC challenge"), Num(400)), Failure(Undefined, Num(402)), Failure(Str("BEARER challenge"), Num(403))]
    ensures var names := Many(["basic", "no-challenge", "bearer"]);
            && AllFailed(Configure(names, Omitted, false), fs, req) == Run(Respond(Num(400), [], Some("Bad Request")), req)
            && AllFailed(Configure(names, Omitted, true), fs, req)
               == Run(Called([Null, Bool(false), Arr([Str("BASIC challenge"), Undefined, Str("BEARER challenge")]),
                                Arr([Num(400), Num(402), Num(403)])]), req)
  {
    ResponseCodeIsFirstStatus(fs, 0);
    assert Challenges(fs) == [Str("BASIC challenge"), Undefined, Str("BEARER challenge")];
    assert Statuses(fs) == [Num(400), Num(402), Num(403)];
    assert Notify(req, Undefined, Undefined, FirstChallenge(fs), "error") == Ok(req);
  }

  // ---------------------------------------------------------------------------
  // Success
  // ---------------------------------------------------------------------------

  /**
   * A successful strategy with default options logs the user in: `next()`,
   * the user property holds the user, the session record holds the
   * serialized user, and `req.authInfo` holds the transformed info.
   */
  lemma SuccessLogsIn(a: Authenticator, user: JsValue, info: JsValue, req: Request)
    requires req.helpers && req.passport.Some? && !req.passport.value.record.Primitive?
    requires req.passport.value.instance == a
    requires UserProperty(req) != "authInfo"
    requires AsPromise(Resolve(SerializeChain, a.serializers, user)).Resolved?
    requires AsPromise(Resolve(TransformChain, a.transformers, Or(info, EmptyObject))).Resolved?
    ensures var r := Succeed(a, Configure(One("local"), Omitted, false), user, info, req);
            && r.outcome == Next
            && Prop(r.req, UserProperty(req)) == user
            && (RequestHelpers.IsAuthenticated(r.req) <==> Truthy(user))
            && SessionUser(r.req) == AsPromise(Resolve(SerializeChain, a.serializers, user)).value
            && Prop(r.req, "authInfo") == AsPromise(Resolve(TransformChain, a.transformers, Or(info, EmptyObject))).value
  {
    var info' := Or(info, EmptyObject);
    DefaultSuccessLogsIn(a, user, info, req);
    StoredLogInAuthorizes(a, user, info', req);
    RequestHelpers.LogInCompletes(req, user, Undefined, false);
    var req2 := RequestHelpers.LogIn(req, user, Undefined, false).0;
    TransformedInfoCompletes(a, info', req2);
    var t := AsPromise(Resolve(TransformChain, a.transformers, info')).value;
    assert Prop(SetProp(req2, "authInfo", t), UserProperty(req)) == Prop(req2, UserProperty(req));
  }

  /** With default options, the notices are empty and `success` goes straight to the login. */
  lemma DefaultSuccessLogsIn(a: Authenticator, user: JsValue, info: JsValue, req: Request)
    ensures Succeed(a, Configure(One("local"), Omitted, false), user, info, req)
            == Assign(a, NoOptions, user, Or(info, EmptyObject), req)
  {
    assert Notify(req, Undefined, Undefined, Or(info, EmptyObject), "success") == Ok(req);
  }

  /** A login the manager completes goes on to the auth info. */
  lemma StoredLogInAuthorizes(a: Authenticator, user: JsValue, info: JsValue, req: Request)
    requires req.helpers && req.passport.Some? && !req.passport.value.record.Primitive?
    requires req.passport.value.instance == a
    requires AsPromise(Resolve(SerializeChain, a.serializers, user)).Resolved?
    ensures Assign(a, NoOptions, user, info, req)
            == Authorized(a, NoOptions, info, RequestHelpers.LogIn(req, user, Undefined, false).0)
  {
    RequestHelpers.LogInCompletes(req, user, Undefined, false);
  }

  /** With default options, a resolved transformation lands in `req.authInfo` and `next()` follows. */
  lemma TransformedInfoCompletes(a: Authenticator, info: JsValue, req: Request)
    requires AsPromise(Resolve(TransformChain, a.transformers, info)).Resolved?
    ensures Authorized(a, NoOptions, info, req)
            == Run(Next, SetProp(req, "authInfo", AsPromise(Resolve(TransformChain, a.transformers, info)).value))
  {
  }

  /** With `assignProperty`, the user is assigned there and nothing is logged in. */
  lemma AssignPropertySkipsLogin(a: Authenticator, user: JsValue, info: JsValue, property: string, req: Request)
    requires property != ""
    ensures var r := Succeed(a, Configure(One("local"), Given(NoOptions.(assignProperty := property)), false), user, info, req);
            r == Run(Next, SetProp(req, property, user))
  {
    assert Notify(req, Undefined, Undefined, Or(info, EmptyObject), "success") == Ok(req);
  }

  /** With `authInfo: false` the transformers are never consulted. */
  lemma AuthInfoFalseSkipsTransformers(a: Authenticator, cfg: Config, user: JsValue, info: JsValue, req: Request)
    requires cfg.options.authInfo == Bool(false)
    ensures Succeed(a, cfg, user, info, req) == Succeed(a.(transformers := []), cfg, user, info, req)
  {
  }
}

=== FILE: authentication_error.dfy ===
/** The error `failWithError` hands to `next` (lib/errors/authenticationerror.js). */
module AuthErrors {
  import opened JsValues

  /**
   * `new AuthenticationError(message, status)`, seen through its `name`,
   * `message` and `status` properties; a missing message is the empty string.
   */
  function AuthenticationError(message: Option<string>, status: JsValue): (e: JsValue)
    ensures e.Obj?
    ensures Get(e, "name") == Str("AuthenticationError")
    ensures message.Some? ==> Get(e, "message") == Str(message.value)
    ensures message.None? ==> Get(e, "message") == Str("")
    ensures Truthy(Get(e, "status"))
    ensures Truthy(status) ==> Get(e, "status") == status
    ensures !Truthy(status) ==> Get(e, "status") == Num(401)
  {
    var text := if message.Some? then message.value else "";
    Obj(map["name" := Str("AuthenticationError"), "message" := Str(text), "status" := Or(status, Num(401))])
  }
}

=== FILE: authenticator.dfy ===
/**
 * The authenticator's registry (lib/authenticator.js): named strategies, the
 * three handler lists, the session key and the user property.
 */
module Authenticators {
  import opened JsValues
  import opened Chains

  /** The one action a strategy's `authenticate` invokes; missing arguments are `undefined`. */
  datatype Action =
    | Success(user: JsValue, info: JsValue)
    | Fail(challenge: JsValue, status: JsValue)
    | Redirect(url: JsValue, status: JsValue)
    | Pass
    | Error(err: JsValue)
    | Silent   // invokes no action at all

  /**
   * A registered strategy: a scripted one that always takes the same action,
   * or the built-in session strategy.
   */
  datatype Strategy = Scripted(name: string, action: Action) | SessionRestore {
    /** `strategy.name`; the session strategy's is always 'session'. */
    function Name(): string {
      match this
      case Scripted(n, _) => n
      case SessionRestore => "session"
    }
  }

  datatype Authenticator = Authenticator(
    key: string,
    strategies: map<string, Strategy>,
    serializers: seq<Handler>,
    deserializers: seq<Handler>,
    transformers: seq<Handler>,
    userProperty: string)

  const UnnamedStrategy: JsValue := ErrorValue("Authentication strategies must have a name")

  /** `_strategy(name)` */
  function StrategyOf(a: Authenticator, name: string): Option<Strategy> {
    if name in a.strategies then Some(a.strategies[name]) else None
  }

  /** The constructor followed by `init`: the session strategy is registered under its own name. */
  function New(): (a: Authenticator)
    ensures a.key == "passport" && a.userProperty == "user"
    ensures StrategyOf(a, "session") == Some(SessionRestore) && SessionRestore.Name() == "session"
    ensures forall name :: name != "session" ==> StrategyOf(a, name) == None
    ensures a.serializers == [] && a.deserializers == [] && a.transformers == []
  {
    Authenticator("passport", map["session" := SessionRestore], [], [], [], "user")
  }

  /** `use(name, strategy)`: overwrites any strategy of that name; a falsy name throws. */
  function Use(a: Authenticator, name: string, s: Strategy): (r: Result<Authenticator>)
    ensures r.Throws? <==> name == ""
    ensures r.Throws? ==> r.error == UnnamedStrategy
    ensures r.Ok? ==> StrategyOf(r.value, name) == Some(s)
    ensures r.Ok? ==> forall other :: other != name ==> StrategyOf(r.value, other) == StrategyOf(a, other)
    ensures r.Ok? ==> r.value.(strategies := a.strategies) == a
  {
    if name == "" then Throws(UnnamedStrategy)
    else Ok(a.(strategies := a.strategies[name := s]))
  }

  /** `use(strategy)`: the strategy is registered under its own `name`. */
  function UseOwnName(a: Authenticator, s: Strategy): (r: Result<Authenticator>)
    ensures r.Throws? <==> s.Name() == ""
    ensures r.Throws? ==> r.error == UnnamedStrategy
    ensures r.Ok? ==> StrategyOf(r.value, s.Name()) == Some(s)
    ensures r.Ok? ==> forall other :: other != s.Name() ==> StrategyOf(r.value, other) == StrategyOf(a, other)
    ensures r.Ok? ==> r.value.(strategies := a.strategies) == a
  {
    Use(a, s.Name(), s)
  }

  /** `unuse(name)`: removes that entry only; removing an absent name changes nothing. */
  function Unuse(a: Authenticator, name: string): (r: Authenticator)
    ensures StrategyOf(r, name) == None
    ensures forall other :: other != name ==> StrategyOf(r, other) == StrategyOf(a, other)
    ensures r.(strategies := a.strategies) == a
  {
    a.(strategies := a.strategies - {name})
  }

  /** Registering twice under one name keeps only the latter; `unuse` undoes a `use` of a fresh name. */
  lemma UseUnuseLaws(a: Authenticator, name: string, s1: Strategy, s2: Strategy)
    requires name != ""
    ensures Use(Use(a, name, s1).value, name, s2) == Use(a, name, s2)
    ensures StrategyOf(a, name) == None ==> Unuse(Use(a, name, s1).value, name) == a
    ensures StrategyOf(a, name) == None ==> Unuse(a, name) == a
  {
    assert a.strategies[name := s1][name := s2] == a.strategies[name := s2];
    if StrategyOf(a, name) == None {
      assert a.strategies[name := s1] - {name} == a.strategies;
      assert a.strategies - {name} == a.strategies;
    }
  }

  /** The handler list of one chain. */
  function Handlers(a: Authenticator, c: Chain): seq<Handler> {
    match c
    case SerializeChain => a.serializers
    case DeserializeChain => a.deserializers
    case TransformChain => a.transformers
  }

  /**
   * `serializeUser(fn)`, `deserializeUser(fn)`, `transformAuthInfo(fn)` with a
   * function: push it onto that chain and return the new length.
   */
  function Register(a: Authenticator, c: Chain, h: Handler): (r: (Authenticator, nat))
    ensures r.1 == |Handlers(r.0, c)| == |Handlers(a, c)| + 1
    ensures Handlers(r.0, c)[..|Handlers(a, c)|] == Handlers(a, c) && Handlers(r.0, c)[|Handlers(a, c)|] == h
    ensures forall other :: other != c ==> Handlers(r.0, other) == Handlers(a, other)
    ensures r.0.strategies == a.strategies && r.0.key == a.key && r.0.userProperty == a.userProperty
  {
    match c
    case SerializeChain => (a.(serializers := a.serializers + [h]), |a.serializers| + 1)
    case DeserializeChain => (a.(deserializers := a.deserializers + [h]), |a.deserializers| + 1)
    case TransformChain => (a.(transformers := a.transformers + [h]), |a.transformers| + 1)
  }

  /** A handler registered later is consulted only when every earlier one skips. */
  lemma RegistrationOrder(a: Authenticator, c: Chain, h: Handler, input: JsValue)
    ensures AllSkip(c, Handlers(a, c), input) ==>
              Resolve(c, Handlers(Register(a, c, h).0, c), input) == Resolve(c, [h], input)
    ensures !AllSkip(c, Handlers(a, c), input) ==>
              Resolve(c, Handlers(Register(a, c, h).0, c), input) == Resolve(c, Handlers(a, c), input)
  {
    assert Handlers(Register(a, c, h).0, c) == Handlers(a, c) + [h];
    ChainAppend(c, Handlers(a, c), [h], input);
  }

  /** The first half of `initialize(options)`: `_userProperty = options.userProperty || 'user'`. */
  function SetUserProperty(a: Authenticator, userProperty: string): (r: Authenticator)
    ensures r.userProperty != ""
    ensures userProperty != "" ==> r.userProperty == userProperty
    ensures userProperty == "" ==> r.userProperty == "user"
    ensures r.(userProperty := a.userProperty) == a
  {
    a.(userProperty := if userProperty != "" then userProperty else "user")
  }
}

=== FILE: chains.dfy ===
/**
 * The three handler chains of the authenticator: serializers, deserializers
 * and auth-info transformers (lib/authenticator.js).
 *
 * Each chain walks its registered handlers in registration order through the
 * recursive `pass(i, err, value)` closure of the source: the result delivered
 * by handler `i - 1` is examined first, and only when it is not definitive is
 * handler `i` consulted. An error equal to the string 'pass' is erased before
 * that examination. Handlers are callback-style; a transformer declared with
 * one parameter is synchronous and its return value is its result.
 */
module Chains {
  import opened JsValues

  /** What a handler does when invoked with the chain's input. */
  datatype Reply =
    | Callback(err: JsValue, value: JsValue)  // calls the `done` callback it was handed
    | Return(value: JsValue)                  // returns without calling `done`
    | Throw(error: JsValue)                   // throws synchronously

  /**
   * A registered handler: its declared parameter count (`fn.length`) and its
   * behaviour as a function of the chain's input.
   */
  datatype Handler = Handler(arity: int, run: JsValue -> Reply)

  datatype Chain = SerializeChain | DeserializeChain | TransformChain

  /** `done(err, value)` was called once, or the walk never finished. */
  datatype ChainResult = Done(err: JsValue, value: JsValue) | Stalled

  /** What invoking one handler feeds back: the next `pass` call, or the end of the walk. */
  datatype Step = Continue(err: JsValue, value: JsValue) | Finish(result: ChainResult)

  const SerializeFailure: JsValue := ErrorValue("Failed to serialize user into session")
  const DeserializeFailure: JsValue := ErrorValue("Failed to deserialize user out of session")

  /** Handlers use the string 'pass' as an error to skip processing. */
  function Unpass(err: JsValue): JsValue {
    if err == Str("pass") then Undefined else err
  }

  /** The test at the head of `pass`: is the delivered result definitive? */
  predicate Halts(c: Chain, err: JsValue, v: JsValue) {
    match c
    case SerializeChain => Truthy(err) || Truthy(v) || v == Num(0)
    case DeserializeChain => Truthy(err) || Truthy(v) || v == Null || v == Bool(false)
    case TransformChain => Truthy(err) || Truthy(v)
  }

  /** The `done` call for a definitive result; a deserializer's null or false becomes `(null, false)`. */
  function Settled(c: Chain, err: JsValue, v: JsValue): ChainResult {
    if c == DeserializeChain && !Truthy(err) && !Truthy(v) then Done(Null, Bool(false))
    else Done(err, v)
  }

  /** The `done` call once no handler is left. */
  function Exhausted(c: Chain, input: JsValue): ChainResult {
    match c
    case SerializeChain => Done(SerializeFailure, Undefined)
    case DeserializeChain => Done(DeserializeFailure, Undefined)
    case TransformChain => Done(Null, input)
  }

  /**
   * Invoking `h`. Callback-style handlers continue the walk through their
   * callback, end it with `done(e)` when they throw, and leave it hanging when
   * they return without calling back. A one-parameter transformer has no
   * callback: whatever it returns is passed on with a null error.
   */
  function Invoke(c: Chain, h: Handler, input: JsValue): Step {
    var reply := h.run(input);
    if c == TransformChain && h.arity == 1 then
      match reply
      case Return(t) => Continue(Null, t)
      case Throw(e) => Finish(Done(e, Undefined))
      case Callback(_, _) => Continue(Null, Undefined)
    else
      match reply
      case Callback(e, v) => Continue(e, v)
      case Throw(e) => Finish(Done(e, Undefined))
      case Return(_) => Finish(Stalled)
  }

  /** The `pass(i, err, value)` closure, as written. */
  function Walk(c: Chain, hs: seq<Handler>, input: JsValue, i: nat, err: JsValue, v: JsValue): ChainResult
    requires i <= |hs|
    decreases |hs| - i
  {
    var e := Unpass(err);
    if Halts(c, e, v) then Settled(c, e, v)
    else if i == |hs| then Exhausted(c, input)
    else
      match Invoke(c, hs[i], input)
      case Finish(r) => r
      case Continue(e', v') => Walk(c, hs, input, i + 1, e', v')
  }

  /** `serializeUser(user, done)`, `deserializeUser(obj, done)`, `transformAuthInfo(info, done)`. */
  function Resolve(c: Chain, hs: seq<Handler>, input: JsValue): ChainResult {
    Walk(c, hs, input, 0, Undefined, Undefined)
  }

  // ---------------------------------------------------------------------------
  // Reference reading: the first handler that does not skip decides.
  // ---------------------------------------------------------------------------

  /** Handler `h` declines: its reply continues the walk with a non-definitive result. */
  predicate Skips(c: Chain, h: Handler, input: JsValue) {
    match Invoke(c, h, input)
    case Finish(_) => false
    case Continue(e, v) => !Halts(c, Unpass(e), v)
  }

  predicate AllSkip(c: Chain, hs: seq<Handler>, input: JsValue) {
    forall k :: 0 <= k < |hs| ==> Skips(c, hs[k], input)
  }

  /** The result a non-skipping handler decides. */
  function Verdict(c: Chain, h: Handler, input: JsValue): ChainResult
    requires !Skips(c, h, input)
  {
    match Invoke(c, h, input)
    case Finish(r) => r
    case Continue(e, v) => Settled(c, Unpass(e), v)
  }

  function FirstDecisive(c: Chain, hs: seq<Handler>, input: JsValue): ChainResult
    decreases |hs|
  {
    if |hs| == 0 then Exhausted(c, input)
    else if Skips(c, hs[0], input) then FirstDecisive(c, hs[1..], input)
    else Verdict(c, hs[0], input)
  }

  /** The reference reading of a suffix, one handler at a time. */
  lemma FirstDecisiveUnfold(c: Chain, hs: seq<Handler>, input: JsValue, i: nat)
    requires i < |hs|
    ensures FirstDecisive(c, hs[i..], input)
            == if Skips(c, hs[i], input) then FirstDecisive(c, hs[i + 1..], input) else Verdict(c, hs[i], input)
  {
    assert hs[i..][0] == hs[i];
    assert hs[i..][1..] == hs[i + 1..];
  }

  /** One step of the walker, read against the reference: a handler that does not skip ends the walk with its verdict. */
  lemma WalkStep(c: Chain, hs: seq<Handler>, input: JsValue, i: nat, err: JsValue, v: JsValue)
    requires i < |hs|
    requires !Halts(c, Unpass(err), v)
    ensures !Skips(c, hs[i], input) ==> Walk(c, hs, input, i, err, v) == Verdict(c, hs[i], input)
    ensures Skips(c, hs[i], input) ==>
              && Invoke(c, hs[i], input).Continue?
              && !Halts(c, Unpass(Invoke(c, hs[i], input).err), Invoke(c, hs[i], input).value)
              && Walk(c, hs, input, i, err, v)
                 == Walk(c, hs, input, i + 1, Invoke(c, hs[i], input).err, Invoke(c, hs[i], input).value)
  {
    var step := Invoke(c, hs[i], input);
    if step.Continue? && Halts(c, Unpass(step.err), step.value) {
      assert Walk(c, hs, input, i + 1, step.err, step.value) == Settled(c, Unpass(step.err), step.value);
    }
  }

  /** From any non-definitive point, the walker computes the reference reading of the remaining handlers. */
  lemma {:induction false} WalkMatchesReference(c: Chain, hs: seq<Handler>, input: JsValue, i: nat, err: JsValue, v: JsValue)
    requires i <= |hs|
    requires !Halts(c, Unpass(err), v)
    ensures Walk(c, hs, input, i, err, v) == FirstDecisive(c, hs[i..], input)
    decreases |hs| - i
  {
    if i < |hs| {
      FirstDecisiveUnfold(c, hs, input, i);
      WalkStep(c, hs, input, i, err, v);
      if Skips(c, hs[i], input) {
        var step := Invoke(c, hs[i], input);
        WalkMatchesReference(c, hs, input, i + 1, step.err, step.value);
      }
    }
  }

  /** The as-written walker and the reference reading agree on every chain. */
  lemma ResolveIsFirstDecisive(c: Chain, hs: seq<Handler>, input: JsValue)
    ensures Resolve(c, hs, input) == FirstDecisive(c, hs, input)
  {
    WalkMatchesReference(c, hs, input, 0, Undefined, Undefined);
    assert hs[0..] == hs;
  }

  lemma {:induction false} FirstDecisiveAppend(c: Chain, hs: seq<Handler>, more: seq<Handler>, input: JsValue)
    ensures AllSkip(c, hs, input) ==> FirstDecisive(c, hs + more, input) == FirstDecisive(c, more, input)
    ensures !AllSkip(c, hs, input) ==> FirstDecisive(c, hs + more, input) == FirstDecisive(c, hs, input)
    decreases |hs|
  {
    if |hs| > 0 {
      assert (hs + more)[0] == hs[0];
      assert (hs + more)[1..] == hs[1..] + more;
      FirstDecisiveAppend(c, hs[1..], more, input);
      if Skips(c, hs[0], input) {
        assert AllSkip(c, hs, input) <==> AllSkip(c, hs[1..], input) by {
          if AllSkip(c, hs[1..], input) {
            forall k | 0 <= k < |hs| ensures Skips(c, hs[k], input) {
              if k > 0 { assert hs[k] == hs[1..][k - 1]; }
            }
          }
        }
      }
    } else {
      assert hs + more == more;
    }
  }

  /**
   * Registration order is evaluation order: a chain extended with more
   * handlers only consults them when every earlier handler skipped.
   */
  lemma ChainAppend(c: Chain, hs: seq<Handler>, more: seq<Handler>, input: JsValue)
    ensures AllSkip(c, hs, input) ==> Resolve(c, hs + more, input) == Resolve(c, more, input)
    ensures !AllSkip(c, hs, input) ==> Resolve(c, hs + more, input) == Resolve(c, hs, input)
  {
    ResolveIsFirstDecisive(c, hs + more, input);
    ResolveIsFirstDecisive(c, hs, input);
    ResolveIsFirstDecisive(c, more, input);
    FirstDecisiveAppend(c, hs, more, input);
  }

  /** When every handler skips, the chain's exhaustion policy decides. */
  lemma {:induction false} AllSkipExhausts(c: Chain, hs: seq<Handler>, input: JsValue)
    requires AllSkip(c, hs, input)
    ensures Resolve(c, hs, input) == Exhausted(c, input)
  {
    ChainAppend(c, hs, [], input);
    assert hs + [] == hs;
  }

  /** The first handler that does not skip decides; later handlers are never consulted. */
  lemma FirstDecisiveWins(c: Chain, pre: seq<Handler>, h: Handler, post: seq<Handler>, input: JsValue)
    requires AllSkip(c, pre, input)
    requires !Skips(c, h, input)
    ensures Resolve(c, pre + [h] + post, input) == Verdict(c, h, input)
  {
    assert pre + [h] + post == pre + ([h] + post);
    ChainAppend(c, pre, [h] + post, input);
    ResolveIsFirstDecisive(c, [h] + post, input);
    assert ([h] + post)[0] == h;
  }

  /** A handler that skips is invisible: removing it changes nothing. */
  lemma SkippingHandlerIsInvisible(c: Chain, pre: seq<Handler>, h: Handler, post: seq<Handler>, input: JsValue)
    requires Skips(c, h, input)
    ensures Resolve(c, pre + [h] + post, input) == Resolve(c, pre + post, input)
  {
    assert pre + [h] + post == pre + ([h] + post);
    ChainAppend(c, pre, [h] + post, input);
    ChainAppend(c, pre, post, input);
    ResolveIsFirstDecisive(c, [h] + post, input);
    ResolveIsFirstDecisive(c, post, input);
    assert ([h] + post)[0] == h;
    assert ([h] + post)[1..] == post;
  }

  /**
   * How one callback reply is read, in every chain: 'pass' is erased, any
   * other truthy error decides with that error, and a synchronous throw ends
   * the walk with the thrown value, 'pass' or not.
   */
  lemma ReplyReading(c: Chain, h: Handler, input: JsValue)
    requires !(c == TransformChain && h.arity == 1)
    ensures (h.run(input).Callback? && h.run(input).err == Str("pass") && !Halts(c, Undefined, h.run(input).value))
              ==> Skips(c, h, input)
    ensures (h.run(input).Callback? && Truthy(h.run(input).err) && h.run(input).err != Str("pass"))
              ==> !Skips(c, h, input) && Verdict(c, h, input) == Done(h.run(input).err, h.run(input).value)
    ensures (h.run(input).Throw?)
              ==> !Skips(c, h, input) && Verdict(c, h, input) == Done(h.run(input).error, Undefined)
    ensures h.run(input).Return? ==> !Skips(c, h, input) && Verdict(c, h, input) == Stalled
  {
  }

  /** A serializer's 0 is a result; undefined, null, false and '' fall through. */
  lemma SerializeSentinels(h: Handler, rest: seq<Handler>, user: JsValue)
    ensures (h.run(user) == Callback(Null, Num(0)))
              ==> Resolve(SerializeChain, [h] + rest, user) == Done(Null, Num(0))
    ensures (h.run(user).Callback? && !Truthy(Unpass(h.run(user).err))
             && h.run(user).value in {Undefined, Null, Bool(false), Str("")})
              ==> Resolve(SerializeChain, [h] + rest, user) == Resolve(SerializeChain, rest, user)
  {
    assert [h] + rest == [] + [h] + rest;
    if h.run(user) == Callback(Null, Num(0)) {
      FirstDecisiveWins(SerializeChain, [], h, rest, user);
    }
    if h.run(user).Callback? && !Truthy(Unpass(h.run(user).err))
       && h.run(user).value in {Undefined, Null, Bool(false), Str("")} {
      SkippingHandlerIsInvisible(SerializeChain, [], h, rest, user);
      assert [] + rest == rest;
    }
  }

  /**
   * A deserializer's null or false invalidates the session at once, without
   * consulting later handlers; undefined and 0 fall through.
   */
  lemma DeserializeSentinels(h: Handler, rest: seq<Handler>, obj: JsValue)
    ensures (h.run(obj).Callback? && !Truthy(Unpass(h.run(obj).err)) && h.run(obj).value in {Null, Bool(false)})
              ==> Resolve(DeserializeChain, [h] + rest, obj) == Done(Null, Bool(false))
    ensures (h.run(obj).Callback? && !Truthy(Unpass(h.run(obj).err)) && h.run(obj).value in {Undefined, Num(0)})
              ==> Resolve(DeserializeChain, [h] + rest, obj) == Resolve(DeserializeChain, rest, obj)
  {
    assert [h] + rest == [] + [h] + rest;
    if h.run(obj).Callback? && !Truthy(Unpass(h.run(obj).err)) && h.run(obj).value in {Null, Bool(false)} {
      FirstDecisiveWins(DeserializeChain, [], h, rest, obj);
    }
    if h.run(obj).Callback? && !Truthy(Unpass(h.run(obj).err)) && h.run(obj).value in {Undefined, Num(0)} {
      SkippingHandlerIsInvisible(DeserializeChain, [], h, rest, obj);
      assert [] + rest == rest;
    }
  }

  /**
   * A synchronous one-parameter transformer's truthy return value is the
   * transformed info; with no decisive transformer the info is kept as-is.
   */
  lemma TransformSentinels(h: Handler, rest: seq<Handler>, info: JsValue)
    ensures (h.arity == 1 && h.run(info).Return? && Truthy(h.run(info).value))
              ==> Resolve(TransformChain, [h] + rest, info) == Done(Null, h.run(info).value)
    ensures Resolve(TransformChain, [], info) == Done(Null, info)
    ensures AllSkip(TransformChain, [h] + rest, info) ==> Resolve(TransformChain, [h] + rest, info) == Done(Null, info)
  {
    assert [h] + rest == [] + [h] + rest;
    if h.arity == 1 && h.run(info).Return? && Truthy(h.run(info).value) {
      FirstDecisiveWins(TransformChain, [], h, rest, info);
    }
    if AllSkip(TransformChain, [h] + rest, info) {
      AllSkipExhausts(TransformChain, [h] + rest, info);
    }
  }

  /** With no handler registered, serialization and deserialization fail; transformation keeps the info. */
  lemma EmptyChains(input: JsValue)
    ensures Resolve(SerializeChain, [], input) == Done(ErrorValue("Failed to serialize user into session"), Undefined)
    ensures Resolve(DeserializeChain, [], input) == Done(ErrorValue("Failed to deserialize user out of session"), Undefined)
    ensures Resolve(TransformChain, [], input) == Done(Null, input)
  {
  }

  /**
   * The uniform resolver: scan for the first handler that does not skip and
   * let it decide; it computes what the recursive walker computes.
   */
  method ResolveByScan(c: Chain, hs: seq<Handler>, input: JsValue) returns (r: ChainResult)
    ensures r == Resolve(c, hs, input)
  {
    var k := 0;
    while k < |hs| && Skips(c, hs[k], input)
      invariant 0 <= k <= |hs|
      invariant FirstDecisive(c, hs[k..], input) == FirstDecisive(c, hs, input)
    {
      assert hs[k..][1..] == hs[k + 1..];
      k := k + 1;
    }
    if k == |hs| {
      r := Exhausted(c, input);
    } else {
      assert hs[k..][0] == hs[k];
      r := Verdict(c, hs[k], input);
    }
    ResolveIsFirstDecisive(c, hs, input);
  }

  // ---------------------------------------------------------------------------
  // The callers `await` a chain; `done(err, value)` settles that promise.
  // ---------------------------------------------------------------------------

  datatype Settlement = Resolved(value: JsValue) | Rejected(reason: JsValue) | Pending

  /** A truthy error rejects, anything else resolves with the value; a walk that never ends stays pending. */
  function AsPromise(r: ChainResult): (s: Settlement)
    ensures s.Pending? <==> r.Stalled?
    ensures s.Rejected? <==> r.Done? && Truthy(r.err)
    ensures s.Rejected? ==> Truthy(s.reason) && s.reason == r.err
    ensures s.Resolved? ==> !Truthy(r.err) && s.value == r.value
  {
    match r
    case Stalled => Pending
    case Done(e, v) => if Truthy(e) then Rejected(e) else Resolved(v)
  }
}

=== FILE: failures.dfy ===
/**
 * The failures the authenticate middleware accumulates, and how the default
 * denial reads them (lib/middleware/authenticate.js, `fail` and `allFailed`).
 */
module Failures {
  import opened JsValues

  /** One `{ challenge, status }` record pushed by `fail`. */
  datatype Failure = Failure(challenge: JsValue, status: JsValue)

  /** `fail(challenge, status)`: a number given as the challenge is the status. */
  function FailureOf(challenge: JsValue, status: JsValue): (f: Failure)
    ensures challenge.Num? ==> f.status == challenge && f.challenge == Undefined
    ensures !challenge.Num? ==> f.challenge == challenge && f.status == status
    ensures !f.challenge.Num?
  {
    if challenge.Num? then Failure(Undefined, challenge) else Failure(challenge, status)
  }

  /** `rstatus = rstatus || status` over the failures, in order, starting from `acc`. */
  function StatusFold(fs: seq<Failure>, acc: JsValue): JsValue
    decreases |fs|
  {
    if |fs| == 0 then acc else StatusFold(fs[1..], Or(acc, fs[0].status))
  }

  /** `rstatus` after the loop. */
  function ResponseStatus(fs: seq<Failure>): JsValue {
    StatusFold(fs, Undefined)
  }

  /** Once the fold holds a truthy status it keeps it. */
  lemma {:induction false} StatusFoldKeeps(fs: seq<Failure>, acc: JsValue)
    requires Truthy(acc)
    ensures StatusFold(fs, acc) == acc
    decreases |fs|
  {
    if |fs| > 0 {
      StatusFoldKeeps(fs[1..], acc);
    }
  }

  /** The fold yields the first truthy status; with none, it yields a falsy value. */
  lemma {:induction false} StatusFoldFindsFirst(fs: seq<Failure>, acc: JsValue, j: int)
    requires !Truthy(acc)
    requires 0 <= j < |fs| && Truthy(fs[j].status)
    requires forall k :: 0 <= k < j ==> !Truthy(fs[k].status)
    ensures StatusFold(fs, acc) == fs[j].status
    decreases |fs|
  {
    if j == 0 {
      StatusFoldKeeps(fs[1..], fs[0].status);
    } else {
      StatusFoldFindsFirst(fs[1..], Or(acc, fs[0].status), j - 1);
    }
  }

  lemma {:induction false} StatusFoldAllFalsy(fs: seq<Failure>, acc: JsValue)
    requires !Truthy(acc)
    requires forall k :: 0 <= k < |fs| ==> !Truthy(fs[k].status)
    ensures !Truthy(StatusFold(fs, acc))
    decreases |fs|
  {
    if |fs| > 0 {
      StatusFoldAllFalsy(fs[1..], Or(acc, fs[0].status));
    }
  }

  /** The response status `rstatus || 401`. */
  function ResponseCode(fs: seq<Failure>): JsValue {
    Or(ResponseStatus(fs), Num(401))
  }

  /** The response status is the first truthy failure status, and 401 when there is none. */
  lemma ResponseCodeIsFirstStatus(fs: seq<Failure>, j: int)
    requires 0 <= j < |fs| && Truthy(fs[j].status)
    requires forall k :: 0 <= k < j ==> !Truthy(fs[k].status)
    ensures ResponseStatus(fs) == fs[j].status
    ensures ResponseCode(fs) == fs[j].status
  {
    StatusFoldFindsFirst(fs, Undefined, j);
  }

  lemma ResponseCodeDefaults(fs: seq<Failure>)
    requires forall k :: 0 <= k < |fs| ==> !Truthy(fs[k].status)
    ensures !Truthy(ResponseStatus(fs))
    ensures ResponseCode(fs) == Num(401)
  {
    StatusFoldAllFalsy(fs, Undefined);
  }

  /** `rchallenge`: the challenges that are strings, in order (empty strings included). */
  function StringChallenges(fs: seq<Failure>): seq<string>
    decreases |fs|
  {
    if |fs| == 0 then []
    else (if fs[0].challenge.Str? then [fs[0].challenge.s] else []) + StringChallenges(fs[1..])
  }

  /** A string is in `rchallenge` exactly when some failure carried it as its challenge. */
  lemma {:induction false} StringChallengesMembers(fs: seq<Failure>, s: string)
    ensures s in StringChallenges(fs) <==> exists k :: 0 <= k < |fs| && fs[k].challenge == Str(s)
    decreases |fs|
  {
    if |fs| > 0 {
      StringChallengesMembers(fs[1..], s);
      if s in StringChallenges(fs[1..]) {
        var k :| 0 <= k < |fs[1..]| && fs[1..][k].challenge == Str(s);
        assert fs[k + 1].challenge == Str(s);
      }
      if exists k :: 0 <= k < |fs| && fs[k].challenge == Str(s) {
        var k :| 0 <= k < |fs| && fs[k].challenge == Str(s);
        if k > 0 {
          assert fs[1..][k - 1].challenge == Str(s);
        }
      }
    }
  }

  /** Each failure adds at most one challenge, and a failure's string challenge is never dropped. */
  lemma {:induction false} StringChallengesAppend(fs: seq<Failure>, f: Failure)
    ensures StringChallenges(fs + [f]) == StringChallenges(fs) + (if f.challenge.Str? then [f.challenge.s] else [])
    ensures |StringChallenges(fs)| <= |fs|
    decreases |fs|
  {
    if |fs| > 0 {
      assert (fs + [f])[1..] == fs[1..] + [f];
      StringChallengesAppend(fs[1..], f);
    }
  }

  /** `failures.map(f => f.challenge)` */
  function Challenges(fs: seq<Failure>): (r: seq<JsValue>)
    ensures |r| == |fs| && forall k :: 0 <= k < |fs| ==> r[k] == fs[k].challenge
  {
    seq(|fs|, k requires 0 <= k < |fs| => fs[k].challenge)
  }

  /** `failures.map(f => f.status)` */
  function Statuses(fs: seq<Failure>): (r: seq<JsValue>)
    ensures |r| == |fs| && forall k :: 0 <= k < |fs| ==> r[k] == fs[k].status
  {
    seq(|fs|, k requires 0 <= k < |fs| => fs[k].status)
  }
}

=== FILE: http.dfy ===
/**
 * The request as the authentication core sees it: the own properties it
 * writes (`req.user`, `req.account`, `req.authInfo`, ...), the per-request
 * scratch state `req._passport`, the host's session object `req.session`,
 * whether the identity helpers are installed, and `req.flash`. Also the
 * outcomes a middleware invocation can end in.
 */
module Http {
  import opened JsValues
  import opened Authenticators

  /** The host's session object: its properties, and whether it has a `save` method. */
  datatype HostSession = HostSession(data: map<string, JsValue>, canSave: bool)

  /**
   * What `req._passport.session` holds. JavaScript aliases it with the object
   * stored in the host session, so the model records WHERE the object lives
   * rather than copying it.
   */
  datatype RecordRef =
    | NoRecord                               // undefined (or any falsy value)
    | Detached(fields: map<string, JsValue>) // an object not stored in the host session
    | Linked(key: string)                    // the very object stored at `req.session[key]`
    | Primitive(v: JsValue)                  // a truthy value that is not an object

  /** `req._passport`: the authenticator instance and the session record. */
  datatype Scratch = Scratch(instance: Authenticator, record: RecordRef)

  /** One `req.flash(type, message)` call. */
  datatype Flash = Flash(kind: JsValue, message: string)

  datatype Request = Request(
    props: map<string, JsValue>,
    passport: Option<Scratch>,
    session: Option<HostSession>,
    helpers: bool,                 // `req.logIn`, `req.logOut`, ... installed
    flashes: Option<seq<Flash>>)   // None: `req.flash` is not a function

  /** What every entry point reports when `initialize` has not run on the request. */
  const NotInitialized: JsValue := ErrorValue("passport.initialize() middleware not in use")

  /** A linked record really is an object stored in the host session. */
  predicate WellFormed(req: Request) {
    req.passport.Some? && req.passport.value.record.Linked? ==>
      && req.session.Some?
      && req.passport.value.record.key in req.session.value.data
      && req.session.value.data[req.passport.value.record.key].Obj?
  }

  function Prop(req: Request, name: string): JsValue {
    Lookup(req.props, name)
  }

  function SetProp(req: Request, name: string, v: JsValue): Request {
    req.(props := req.props[name := v])
  }

  /** `req.session[key]`, undefined without a host session. */
  function HostValue(req: Request, key: string): JsValue {
    if req.session.Some? then Lookup(req.session.value.data, key) else Undefined
  }

  /** The property the identity helpers use: `_passport.instance._userProperty || 'user'`. */
  function UserProperty(req: Request): string {
    if req.passport.Some? && req.passport.value.instance.userProperty != "" then
      req.passport.value.instance.userProperty
    else
      "user"
  }

  /** The fields of the object `req._passport.session`, when it is one. */
  function Record(req: Request): Option<map<string, JsValue>> {
    if req.passport.None? then None
    else
      match req.passport.value.record
      case Detached(fields) => Some(fields)
      case Linked(k) =>
        if req.session.Some? && k in req.session.value.data && req.session.value.data[k].Obj? then
          Some(req.session.value.data[k].fields)
        else None
      case _ => None
  }

  /** `req._passport.session.user` when `req._passport.session` is truthy. */
  function SessionUser(req: Request): JsValue {
    match Record(req)
    case Some(fields) => Lookup(fields, "user")
    case None => Undefined
  }

  /** Writes through `req._passport.session`: the change is seen wherever the object is stored. */
  function WithRecord(req: Request, fields: map<string, JsValue>): Request {
    if req.passport.None? then req
    else
      var sc := req.passport.value;
      match sc.record
      case Detached(_) => req.(passport := Some(sc.(record := Detached(fields))))
      case Linked(k) =>
        if req.session.Some? then
          req.(session := Some(req.session.value.(data := req.session.value.data[k := Obj(fields)])))
        else req
      case _ => req
  }

  /** `delete req.session[key]`; a record that lived there stays reachable from `_passport`. */
  function DeleteHostKey(req: Request, key: string): Request {
    if req.session.None? then req
    else
      var host := req.session.value;
      var req' := req.(session := Some(host.(data := host.data - {key})));
      if req.passport.Some? && req.passport.value.record == Linked(key) then
        var fields := if key in host.data && host.data[key].Obj? then host.data[key].fields else map[];
        req'.(passport := Some(req.passport.value.(record := Detached(fields))))
      else req'
  }

  /** How a middleware invocation ends. */
  datatype Outcome =
    | Next                                            // `next()`
    | NextError(err: JsValue)                         // `next(err)`
    | Called(args: seq<JsValue>)                      // the application's callback, with these arguments
    | Redirected(url: JsValue, savedFirst: bool)      // `res.redirect(url)`, inside `req.session.save` when it exists
    | RawRedirect(status: JsValue, location: JsValue) // status, `Location`, `Content-Length: 0`, end
    | Respond(status: JsValue, challenges: seq<string>, body: Option<string>)
                                                      // status, `WWW-Authenticate` when challenges is non-empty, `res.end(body)`
    | DenyWithError(status: JsValue, challenges: seq<string>, err: JsValue)
                                                      // status and `WWW-Authenticate` set, then `next(err)`
    | Crash(err: JsValue)                             // a TypeError escapes the strategy action
    | Hung                                            // nothing is ever called: the request hangs

  datatype Run = Run(outcome: Outcome, req: Request)

  /** How a helper that takes an optional completion callback finishes. */
  datatype Signal =
    | Returns                       // returns (or resolves) without error
    | CallsBack(args: seq<JsValue>) // invokes its callback with these arguments
    | ThrowsNow(err: JsValue)       // throws synchronously
    | Rejects(err: JsValue)         // its promise rejects
    | Hangs                         // never finishes

  /** `http.STATUS_CODES[status]` for the codes the failure path produces in practice. */
  function ReasonPhrase(status: JsValue): Option<string> {
    match status
    case Num(400) => Some("Bad Request")
    case Num(401) => Some("Unauthorized")
    case Num(402) => Some("Payment Required")
    case Num(403) => Some("Forbidden")
    case _ => None
  }
}

=== FILE: initialize.dfy ===
/**
 * The `initialize` middleware (lib/middleware/initialize.js): fresh scratch
 * state for the request, the login-session record loaded from the host
 * session, and the identity helpers installed.
 */
module Initialization {
  import opened JsValues
  import opened Authenticators
  import opened Http

  /** What `req._passport.session` becomes when the host session holds `v` under the key. */
  function Loaded(key: string, v: JsValue): RecordRef {
    if !Truthy(v) then NoRecord
    else if v.Obj? then Linked(key)
    else Primitive(v)
  }

  function Initialize(a: Authenticator, req: Request): (r: Run)
    ensures r.outcome == Next
    ensures r.req.passport.Some? && r.req.passport.value.instance == a
    ensures r.req.helpers
    ensures r.req.props == req.props && r.req.session == req.session && r.req.flashes == req.flashes
    // any earlier scratch state is discarded; the record is the host's object under the key, if truthy
    ensures !Truthy(HostValue(req, a.key)) ==> r.req.passport.value.record == NoRecord && SessionUser(r.req) == Undefined
    ensures HostValue(req, a.key).Obj? ==> (
              && r.req.passport.value.record == Linked(a.key)
              && Record(r.req) == Some(HostValue(req, a.key).fields)
              && SessionUser(r.req) == Get(HostValue(req, a.key), "user"))
    ensures (Truthy(HostValue(req, a.key)) && !HostValue(req, a.key).Obj?) ==>
              r.req.passport.value.record == Primitive(HostValue(req, a.key)) && SessionUser(r.req) == Undefined
    ensures WellFormed(r.req)
    ensures UserProperty(r.req) == (if a.userProperty != "" then a.userProperty else "user")
  {
    var record := Loaded(a.key, HostValue(req, a.key));
    Run(Next, req.(passport := Some(Scratch(a, record)), helpers := true))
  }

  /** Running `initialize` twice is the same as running it once. */
  lemma InitializeIdempotent(a: Authenticator, req: Request)
    ensures Initialize(a, Initialize(a, req).req) == Initialize(a, req)
  {
  }
}

=== FILE: js_value.dfy ===
/**
 * JavaScript values as the authentication core inspects them.
 *
 * The core branches on JavaScript truthiness and on strict equality with a few
 * sentinels (`0`, `null`, `false`, the string `'pass'`), so those distinctions
 * are kept exactly. Numbers are integers (there is no NaN and no fraction),
 * objects are property maps without identity, arrays are sequences.
 */
module JsValues {

  datatype Option<+T> = None | Some(value: T)

  datatype JsValue =
    | Undefined
    | Null
    | Bool(b: bool)
    | Num(n: int)
    | Str(s: string)
    | Arr(items: seq<JsValue>)
    | Obj(fields: map<string, JsValue>)

  /** A computation that either returns a value or throws a JavaScript value. */
  datatype Result<+T> = Ok(value: T) | Throws(error: JsValue)

  /** `Boolean(v)`: everything is truthy except undefined, null, false, 0 and ''. */
  predicate Truthy(v: JsValue) {
    match v
    case Undefined => false
    case Null => false
    case Bool(b) => b
    case Num(n) => n != 0
    case Str(s) => s != ""
    case Arr(_) => true
    case Obj(_) => true
  }

  /** `a || b` */
  function Or(a: JsValue, b: JsValue): JsValue {
    if Truthy(a) then a else b
  }

  /** A property of a map-shaped object, `undefined` when missing. */
  function Lookup(m: map<string, JsValue>, key: string): JsValue {
    if key in m then m[key] else Undefined
  }

  /**
   * `v[key]` on a value that is neither undefined nor null. Only own fields of
   * plain objects are visible; strings, numbers, booleans and arrays have none
   * of the properties the core reads (`message`, `type`, `user`, `returnTo`).
   */
  function Get(v: JsValue, key: string): JsValue {
    match v
    case Obj(fields) => Lookup(fields, key)
    case _ => Undefined
  }

  const EmptyObject: JsValue := Obj(map[])

  /** `new Error(message)`, seen through its `name` and `message` properties. */
  function ErrorValue(message: string): JsValue {
    Obj(map["name" := Str("Error"), "message" := Str(message)])
  }

  /** The `TypeError` the engine raises when it touches a missing method or property. */
  function TypeErrorValue(message: string): JsValue {
    Obj(map["name" := Str("TypeError"), "message" := Str(message)])
  }
}

=== FILE: notices.dfy ===
/**
 * The flash and session messages the authenticate middleware leaves for the
 * application (lib/middleware/authenticate.js, `failureFlash`,
 * `failureMessage`, `successFlash`, `successMessage`).
 *
 * `subject` is what the strategy reported: the first failure's challenge
 * (`failure.challenge || {}`) or the success info (`info || {}`).
 */
module Notices {
  import opened JsValues
  import opened Http

  const NumberFlashOption: JsValue := TypeErrorValue("Cannot create property 'type' on number")
  const NoFlashMethod: JsValue := TypeErrorValue("req.flash is not a function")
  const NoHostSession: JsValue := TypeErrorValue("Cannot read properties of undefined (reading 'messages')")
  const MessagesNotArray: JsValue := TypeErrorValue("req.session.messages.push is not a function")

  /** The text a notice carries, when it is a string at all. */
  function Text(v: JsValue): Option<string> {
    if v.Str? then Some(v.s) else None
  }

  /**
   * The `req.flash(type, message)` call a flash option asks for: a string
   * option is the message itself; `true` takes type and message from the
   * subject; an object option supplies its own type and message, falling back
   * to the subject's message. A number option throws (its `type` cannot be
   * assigned).
   */
  function FlashFor(option: JsValue, subject: JsValue, defaultType: string): (r: Result<Option<Flash>>)
    ensures !Truthy(option) ==> r == Ok(None)
    ensures r.Throws? <==> (option.Num? && Truthy(option))
    ensures r.Throws? ==> r.error == NumberFlashOption
    ensures (option.Str? && Truthy(option)) ==> r == Ok(Some(Flash(Str(defaultType), option.s)))
    ensures option == Bool(true) ==>
              var msg := Or(Get(subject, "message"), subject);
              && r.Ok?
              && (r.value.Some? <==> msg.Str?)
              && (r.value.Some? ==> r.value.value == Flash(Or(Get(subject, "type"), Str(defaultType)), msg.s))
    ensures (option.Obj? || option.Arr?) ==>
              var msg := Or(Get(option, "message"), Or(Get(subject, "message"), subject));
              && r.Ok?
              && (r.value.Some? <==> msg.Str?)
              && (r.value.Some? ==> r.value.value == Flash(Or(Get(option, "type"), Str(defaultType)), msg.s))
    // every flash has a truthy type
    ensures (defaultType != "" && r.Ok? && r.value.Some?) ==> Truthy(r.value.value.kind)
  {
    if !Truthy(option) then Ok(None)
    else if option.Num? then Throws(NumberFlashOption)
    else if option.Str? then Ok(Some(Flash(Str(defaultType), option.s)))
    else if option.Bool? then
      var msg := Or(Get(subject, "message"), subject);
      Ok(if msg.Str? then Some(Flash(Or(Get(subject, "type"), Str(defaultType)), msg.s)) else None)
    else
      var msg := Or(Get(option, "message"), Or(Get(subject, "message"), subject));
      Ok(if msg.Str? then Some(Flash(Or(Get(option, "type"), Str(defaultType)), msg.s)) else None)
  }

  /**
   * The message a `...Message` option pushes onto `req.session.messages`:
   * a string option itself, or for `true` the subject's message (or the
   * subject, when it is a string).
   */
  function MessageFor(option: JsValue, subject: JsValue): (r: Option<string>)
    ensures !Truthy(option) ==> r == None
    ensures (option.Str? && Truthy(option)) ==> r == Some(option.s)
    ensures option == Bool(true) ==> r == Text(Or(Get(subject, "message"), subject))
    ensures (option.Num? || option.Obj? || option.Arr?) ==> r == None
  {
    if !Truthy(option) then None
    else if option.Bool? then Text(Or(Get(subject, "message"), subject))
    else Text(option)
  }

  /**
   * The option object after the normalisation steps: a string option becomes
   * `{ type: defaultType, message: option }`, and any other non-boolean option
   * gets `type = type || defaultType`. A boolean has no properties.
   */
  function NormalizedType(option: JsValue, defaultType: string): JsValue {
    if option.Str? then Str(defaultType)
    else if option.Bool? then Undefined
    else Or(Get(option, "type"), Str(defaultType))
  }

  function NormalizedMessage(option: JsValue): JsValue {
    if option.Str? then option else Get(option, "message")
  }

  /**
   * A second reading of a flash option, step by step as the middleware
   * performs it: normalise the option, then take `type || subject.type ||
   * defaultType` and `message || subject.message || subject`, and flash only
   * a string message.
   */
  function FlashByReading(option: JsValue, subject: JsValue, defaultType: string): Result<Option<Flash>> {
    if !Truthy(option) then Ok(None)
    else if option.Num? then Throws(NumberFlashOption)
    else
      var kind := Or(NormalizedType(option, defaultType), Or(Get(subject, "type"), Str(defaultType)));
      var msg := Or(NormalizedMessage(option), Or(Get(subject, "message"), subject));
      Ok(if msg.Str? then Some(Flash(kind, msg.s)) else None)
  }

  /**
   * The case-by-case derivation agrees with the step-by-step reading for every
   * option and subject, under the default types the middleware uses ('error',
   * 'success'), which are never empty.
   */
  lemma FlashForReadsNormalizedOption(option: JsValue, subject: JsValue, defaultType: string)
    requires defaultType != ""
    ensures FlashFor(option, subject, defaultType) == FlashByReading(option, subject, defaultType)
  {
  }

  /**
   * The subject only supplies what the option leaves open: a falsy option never
   * flashes, and a string or object option fixes the flash type whatever the
   * subject's own `type` is.
   */
  lemma FlashKindIgnoresSubject(option: JsValue, s1: JsValue, s2: JsValue, defaultType: string)
    requires defaultType != ""
    ensures !Truthy(option) ==> FlashFor(option, s1, defaultType) == Ok(None) == FlashFor(option, s2, defaultType)
    ensures (option.Str? || option.Obj? || option.Arr?) ==>
              var f1 := FlashFor(option, s1, defaultType);
              var f2 := FlashFor(option, s2, defaultType);
              (f1.Ok? && f1.value.Some? && f2.Ok? && f2.value.Some?) ==> f1.value.value.kind == f2.value.value.kind
  {
  }

  /**
   * For a string or `true` option, the session message and the flash carry the
   * same text: one is asked for exactly when the other is.
   */
  lemma MessageMatchesFlash(option: JsValue, subject: JsValue, defaultType: string)
    requires option.Str? || option == Bool(true)
    ensures FlashFor(option, subject, defaultType).Ok?
    ensures MessageFor(option, subject).Some? <==> FlashFor(option, subject, defaultType).value.Some?
    ensures MessageFor(option, subject).Some? ==>
              MessageFor(option, subject).value == FlashFor(option, subject, defaultType).value.value.message
  {
  }

  /** `req.flash(type, message)`, when a flash is asked for. */
  function ShowFlash(req: Request, f: Option<Flash>): (r: Result<Request>)
    ensures f.None? ==> r == Ok(req)
    ensures f.Some? && req.flashes.None? ==> r == Throws(NoFlashMethod)
    ensures (f.Some? && req.flashes.Some?) ==> r == Ok(req.(flashes := Some(req.flashes.value + [f.value])))
  {
    match f
    case None => Ok(req)
    case Some(fl) =>
      if req.flashes.None? then Throws(NoFlashMethod)
      else Ok(req.(flashes := Some(req.flashes.value + [fl])))
  }

  /** `req.session.messages = req.session.messages || []; req.session.messages.push(m)` */
  function AppendMessage(req: Request, m: string): (r: Result<Request>)
    ensures req.session.None? ==> r == Throws(NoHostSession)
    ensures (req.session.Some? && !Truthy(HostValue(req, "messages"))) ==>
              r.Ok? && HostValue(r.value, "messages") == Arr([Str(m)])
    ensures (req.session.Some? && HostValue(req, "messages").Arr?) ==>
              r.Ok? && HostValue(r.value, "messages") == Arr(HostValue(req, "messages").items + [Str(m)])
    ensures r.Throws? <==> req.session.None? || (Truthy(HostValue(req, "messages")) && !HostValue(req, "messages").Arr?)
    ensures r.Ok? ==> (
              && r.value.(session := req.session) == req
              && r.value.session.Some? && r.value.session.value.canSave == req.session.value.canSave
              && (forall k :: k != "messages" ==> HostValue(r.value, k) == HostValue(req, k)))
    ensures r.Ok? && WellFormed(req) ==> WellFormed(r.value)
  {
    if req.session.None? then Throws(NoHostSession)
    else
      var host := req.session.value;
      var current := HostValue(req, "messages");
      if !Truthy(current) then Ok(req.(session := Some(host.(data := host.data["messages" := Arr([Str(m)])]))))
      else if current.Arr? then Ok(req.(session := Some(host.(data := host.data["messages" := Arr(current.items + [Str(m)])]))))
      else Throws(MessagesNotArray)
  }

  /** The flash, then the session message, in that order; the first TypeError stops the rest. */
  function Notify(req: Request, flashOption: JsValue, messageOption: JsValue, subject: JsValue, defaultType: string): (r: Result<Request>)
    ensures (!Truthy(flashOption) && !Truthy(messageOption)) ==> r == Ok(req)
    ensures FlashFor(flashOption, subject, defaultType).Throws? ==> r == Throws(NumberFlashOption)
    ensures r.Ok? ==> (
              && r.value.props == req.props
              && r.value.passport == req.passport
              && r.value.helpers == req.helpers
              && SessionUser(r.value) == SessionUser(req)
              && (forall k :: k != "messages" ==> HostValue(r.value, k) == HostValue(req, k)))
    ensures r.Ok? && WellFormed(req) ==> WellFormed(r.value)
    // exactly the flash asked for is appended
    ensures (r.Ok? && FlashFor(flashOption, subject, defaultType) == Ok(None)) ==> r.value.flashes == req.flashes
    ensures (r.Ok? && FlashFor(flashOption, subject, defaultType).Ok? && FlashFor(flashOption, subject, defaultType).value.Some?) ==>
              && req.flashes.Some?
              && r.value.flashes == Some(req.flashes.value + [FlashFor(flashOption, subject, defaultType).value.value])
    // and the message asked for, if any, is the last one in the session
    ensures (r.Ok? && MessageFor(messageOption, subject).Some?) ==>
              && HostValue(r.value, "messages").Arr?
              && |HostValue(r.value, "messages").items| > 0
              && HostValue(r.value, "messages").items[|HostValue(r.value, "messages").items| - 1] == Str(MessageFor(messageOption, subject).value)
    ensures (r.Ok? && MessageFor(messageOption, subject).None?) ==> r.value.session == req.session
    // earlier messages are kept, and the host session keeps its `save`
    ensures (r.Ok? && MessageFor(messageOption, subject).Some? && HostValue(req, "messages").Arr?) ==>
              HostValue(r.value, "messages") == Arr(HostValue(req, "messages").items + [Str(MessageFor(messageOption, subject).value)])
    ensures (r.Ok? && req.session.Some?) ==> r.value.session.Some? && r.value.session.value.canSave == req.session.value.canSave
  {
    match FlashFor(flashOption, subject, defaultType)
    case Throws(e) => Throws(e)
    case Ok(f) =>
      match ShowFlash(req, f)
      case Throws(e) => Throws(e)
      case Ok(req1) =>
        match MessageFor(messageOption, subject)
        case None => Ok(req1)
        case Some(m) => AppendMessage(req1, m)
  }
}

=== FILE: passport.dfy ===
/**
 * The authenticator's middleware factories (lib/authenticator.js:
 * `initialize`, `authenticate`, `authorize`, `session`), each applied to one
 * request, and the login round trip across two requests.
 */
module Passport {
  import opened JsValues
  import opened Chains
  import opened Authenticators
  import opened Http
  import opened Dispatch
  import Initialization
  import SessionStrategy
  import SessionManagers
  import RequestHelpers

  /**
   * `initialize({ userProperty })` followed by the middleware it returns on
   * one request; `userProperty` "" stands for the option being absent.
   */
  function Initialize(a: Authenticator, userProperty: string, req: Request): (r: (Authenticator, Run))
    ensures r.0 == SetUserProperty(a, userProperty)
    ensures r.1.outcome == Next
    ensures r.1.req.passport.Some? && r.1.req.passport.value.instance == r.0
    ensures UserProperty(r.1.req) == (if userProperty != "" then userProperty else "user")
    ensures r.1.req.helpers && WellFormed(r.1.req)
  {
    var a' := SetUserProperty(a, userProperty);
    (a', Initialization.Initialize(a', req))
  }

  /** `authenticate(name, options, callback)` on one request. */
  function Authenticate(a: Authenticator, name: NameArg, options: OptionsArg, callback: bool, req: Request): (r: Run)
    ensures r == Dispatch.Authenticate(a, Configure(name, options, callback), req)
    ensures r.outcome.Called? ==> callback || options.CallbackInstead?
    ensures WellFormed(req) ==> WellFormed(r.req)
  {
    Dispatch.Authenticate(a, Configure(name, options, callback), req)
  }

  /**
   * The options `authorize` hands on: `assignProperty` forced to 'account'.
   * A callback passed in the options position stays a callback, and the
   * forced property is lost with the options.
   */
  function AuthorizeOptions(options: OptionsArg): (o: OptionsArg)
    ensures options.CallbackInstead? <==> o.CallbackInstead?
    ensures options.Given? ==> o == Given(options.options.(assignProperty := "account"))
    ensures options.Omitted? ==> o == Given(NoOptions.(assignProperty := "account"))
  {
    match options
    case Given(opts) => Given(opts.(assignProperty := "account"))
    case Omitted => Given(NoOptions.(assignProperty := "account"))
    case CallbackInstead => CallbackInstead
  }

  /** `authorize(name, options, callback)` on one request. */
  function Authorize(a: Authenticator, name: NameArg, options: OptionsArg, callback: bool, req: Request): (r: Run)
    ensures r.outcome.Called? ==> callback || options.CallbackInstead?
    ensures WellFormed(req) ==> WellFormed(r.req)
  {
    Authenticate(a, name, AuthorizeOptions(options), callback, req)
  }

  /**
   * `session(options)`: authenticate with the strategy named 'session'. A
   * function passed as the options becomes the callback.
   */
  function Session(a: Authenticator, options: OptionsArg, req: Request): (r: Run)
    ensures r.outcome.Called? ==> options.CallbackInstead?
    ensures WellFormed(req) ==> WellFormed(r.req)
  {
    Authenticate(a, One("session"), options, false, req)
  }

  /**
   * With the built-in session strategy, an options object changes nothing,
   * since the strategy only passes, errors or waits; a function in the options
   * position receives the deserialization error that would otherwise go to
   * `next(err)`.
   */
  lemma SessionOptionsPickOnlyCallback(a: Authenticator, opts: Options, req: Request)
    requires StrategyOf(a, "session") == Some(SessionRestore)
    ensures Session(a, Given(opts), req) == Session(a, Omitted, req)
    ensures var plain := Session(a, Omitted, req);
            var called := Session(a, CallbackInstead, req);
            && called.req == plain.req
            && (plain.outcome.NextError? ==> called.outcome == Called([plain.outcome.err]))
            && (!plain.outcome.NextError? ==> called.outcome == plain.outcome)
  {
    var acted := Perform(a, SessionRestore, req);
    assert acted == SessionStrategy.Restore(a, req);
    assert !acted.action.Fail?;
  }

  /**
   * Authorization never touches the login: when a strategy succeeds without
   * a callback, the user lands in `req.account`, the user property and the
   * session record are left as they were, and the middleware calls `next()`.
   */
  lemma AuthorizeKeepsLogin(a: Authenticator, name: string, options: Options, user: JsValue, info: JsValue, req: Request)
    requires name != "" && StrategyOf(a, name) == Some(Scripted(name, Success(user, info)))
    requires UserProperty(req) != "account"
    ensures var r := Authorize(a, One(name), Given(options), false, req);
            !r.outcome.Crash? ==>
              && r.outcome == Next
              && Prop(r.req, "account") == user
              && Prop(r.req, UserProperty(req)) == Prop(req, UserProperty(req))
              && SessionUser(r.req) == SessionUser(req)
              && UserProperty(r.req) == UserProperty(req)
  {
    var cfg := Configure(One(name), AuthorizeOptions(Given(options)), false);
    assert cfg.options.assignProperty == "account";
    assert Dispatch.Authenticate(a, cfg, req) == Succeed(a, cfg, user, info, req);
    var info' := Or(info, EmptyObject);
    var n := Notices.Notify(req, options.successFlash, options.successMessage, info', "success");
    if n.Ok? {
      assert Succeed(a, cfg, user, info, req) == Run(Next, SetProp(n.value, "account", user));
    }
  }

  /**
   * The login round trip. A login on one request stores the serialized user
   * in the host session; a later request carrying that host session (any
   * `other` request with the session replaced) goes through `initialize` and
   * `session()`, which hand the stored value to the deserializers. A truthy
   * user they resolve becomes the user property; a falsy one is dropped from
   * the record. Either way the middleware calls `next()`.
   */
  lemma LoginSurvivesAcrossRequests(a: Authenticator, first: Request, user: JsValue, cb: bool, other: Request,
                                    obj: JsValue, restored: JsValue)
    requires a.key != ""
    requires StrategyOf(a, "session") == Some(SessionRestore)
    requires first.passport.Some? && !first.passport.value.record.Primitive?
    requires AsPromise(Resolve(SerializeChain, a.serializers, user)) == Resolved(obj)
    requires SessionStrategy.HasStoredUser(obj)
    requires AsPromise(Resolve(DeserializeChain, a.deserializers, obj)) == Resolved(restored)
    ensures var later := other.(session := SessionManagers.LogIn(SessionManagers.ManagerOf(a), first, user, cb).0.session);
            var init := Initialization.Initialize(a, later).req;
            var r := Session(a, Omitted, init);
            && SessionUser(init) == obj
            && r.outcome == Next
            && (Truthy(restored) ==> Prop(r.req, UserProperty(init)) == restored && RequestHelpers.IsAuthenticated(r.req))
            && (!Truthy(restored) ==> SessionUser(r.req) == Undefined && Prop(r.req, UserProperty(init)) == Prop(other, UserProperty(init)))
  {
    var later := other.(session := SessionManagers.LogIn(SessionManagers.ManagerOf(a), first, user, cb).0.session);
    StoredUserReloads(a, first, user, cb, other, obj);
    SessionRestores(a, Initialization.Initialize(a, later).req, restored);
  }

  /** The user a login stores is what `initialize` loads on a later request carrying the same host session. */
  lemma StoredUserReloads(a: Authenticator, first: Request, user: JsValue, cb: bool, other: Request, obj: JsValue)
    requires a.key != ""
    requires first.passport.Some? && !first.passport.value.record.Primitive?
    requires AsPromise(Resolve(SerializeChain, a.serializers, user)) == Resolved(obj)
    ensures var later := other.(session := SessionManagers.LogIn(SessionManagers.ManagerOf(a), first, user, cb).0.session);
            var init := Initialization.Initialize(a, later).req;
            && SessionUser(init) == obj
            && init.props == other.props
  {
    var m := SessionManagers.ManagerOf(a);
    assert SessionManagers.Stored(m, first, user);
    var stored := SessionManagers.LogIn(m, first, user, cb).0;
    assert HostValue(stored, m.key) == Obj(Record(stored).value);
    var later := other.(session := stored.session);
    assert HostValue(later, a.key) == HostValue(stored, a.key);
  }

  /** `session()` on an initialized request hands the stored user to the deserializers and calls `next()`. */
  lemma SessionRestores(a: Authenticator, init: Request, restored: JsValue)
    requires StrategyOf(a, "session") == Some(SessionRestore)
    requires init.passport.Some?
    requires SessionStrategy.HasStoredUser(SessionUser(init))
    requires AsPromise(Resolve(DeserializeChain, a.deserializers, SessionUser(init))) == Resolved(restored)
    ensures var r := Session(a, Omitted, init);
            && r.outcome == Next
            && (Truthy(restored) ==> Prop(r.req, UserProperty(init)) == restored && RequestHelpers.IsAuthenticated(r.req))
            && (!Truthy(restored) ==> SessionUser(r.req) == Undefined && Prop(r.req, UserProperty(init)) == Prop(init, UserProperty(init)))
  {
    var cfg := Configure(One("session"), Omitted, false);
    var acted := Perform(a, SessionRestore, init);
    assert acted == SessionStrategy.Restore(a, init);
    assert acted.action == Pass;
    FirstDecisiveStrategyWins(a, cfg, 0, init);
  }
}

=== FILE: request_helpers.dfy ===
/**
 * The identity helpers `initialize` installs on the request
 * (lib/http/request.js): `logIn`, `logOut`, `isAuthenticated`,
 * `isUnauthenticated`.
 */
module RequestHelpers {
  import opened JsValues
  import opened Http
  import SessionManagers

  /** `req._passport.instance._sm` */
  function Manager(req: Request): SessionManagers.SessionManager
    requires req.passport.Some?
  {
    SessionManagers.ManagerOf(req.passport.value.instance)
  }

  /** `options.session`, defaulting to true when it is undefined. */
  predicate WantsSession(session: JsValue) {
    session == Undefined || Truthy(session)
  }

  /**
   * `req.logIn(user, options, done)`. `session` is `options.session`
   * (undefined when the options are missing, or when the callback is passed in
   * their place); `done` says whether a completion callback was given.
   */
  function LogIn(req: Request, user: JsValue, session: JsValue, done: bool): (r: (Request, Signal))
    // the user is assigned before anything can fail
    ensures r.1.ThrowsNow? ==> r == (SetProp(req, UserProperty(req), user), ThrowsNow(NotInitialized))
    ensures r.1.ThrowsNow? <==> WantsSession(session) && req.passport.None?
    ensures !WantsSession(session) ==> r == (SetProp(req, UserProperty(req), user), SessionManagers.Completed(done))
    ensures r.1 == SessionManagers.Completed(done) ==> Prop(r.0, UserProperty(req)) == user
    // with the scratch state, the manager's outcome decides: a rejection resets the user property to null
    ensures (WantsSession(session) && req.passport.Some?) ==>
              var s := SessionManagers.LogIn(Manager(req), SetProp(req, UserProperty(req), user), user, false);
              && (s.1 == Hangs ==> r == s)
              && (s.1.Rejects? ==> r == (SetProp(s.0, UserProperty(req), Null), if done then CallsBack([s.1.err]) else Rejects(s.1.err)))
              && (s.1 == Returns ==> r == (s.0, SessionManagers.Completed(done)))
    ensures UserProperty(r.0) == UserProperty(req)
    ensures WellFormed(req) ==> WellFormed(r.0)
  {
    var property := UserProperty(req);
    var req1 := SetProp(req, property, user);
    if !WantsSession(session) then (req1, SessionManagers.Completed(done))
    else if req1.passport.None? then (req1, ThrowsNow(NotInitialized))
    else
      var (req2, signal) := SessionManagers.LogIn(Manager(req1), req1, user, false);
      match signal
      case Rejects(e) => (SetProp(req2, property, Null), if done then CallsBack([e]) else Rejects(e))
      case Returns => (req2, SessionManagers.Completed(done))
      case _ => (req2, signal)
  }

  /**
   * `req.logOut(done)`: the user property becomes null; with the scratch state
   * the manager clears the record and calls `done`, without it `done` is never
   * called.
   */
  function LogOut(req: Request, done: bool): (r: (Request, Signal))
    ensures Prop(r.0, UserProperty(req)) == Null
    ensures SessionUser(r.0) == Undefined
    ensures req.passport.Some? ==> r.1 == SessionManagers.Completed(done)
    ensures req.passport.None? ==> r == (SetProp(req, UserProperty(req), Null), Returns)
    ensures Record(req).Some? ==> Record(r.0) == Some(Record(req).value - {"user"})
    ensures UserProperty(r.0) == UserProperty(req)
    ensures WellFormed(req) ==> WellFormed(r.0)
  {
    var req1 := SetProp(req, UserProperty(req), Null);
    if req1.passport.Some? then SessionManagers.LogOut(req1, done) else (req1, Returns)
  }

  /** `req.isAuthenticated()` */
  predicate IsAuthenticated(req: Request) {
    Truthy(Prop(req, UserProperty(req)))
  }

  /** `req.isUnauthenticated()` */
  predicate IsUnauthenticated(req: Request) {
    !IsAuthenticated(req)
  }

  /**
   * A completed login makes the request authenticated exactly when the user is
   * truthy; a failed one leaves it unauthenticated; a logout always does.
   */
  lemma AuthenticationFollowsLogIn(req: Request, user: JsValue, session: JsValue, done: bool)
    ensures LogIn(req, user, session, done).1 == SessionManagers.Completed(done) ==>
              (IsAuthenticated(LogIn(req, user, session, done).0) <==> Truthy(user))
    ensures ((LogIn(req, user, session, done).1.Rejects? || LogIn(req, user, session, done).1.CallsBack?)
              && LogIn(req, user, session, done).1 != SessionManagers.Completed(done))
              ==> IsUnauthenticated(LogIn(req, user, session, done).0)
    ensures IsUnauthenticated(LogOut(req, done).0) && !IsAuthenticated(LogOut(req, done).0)
  {
  }

  /**
   * When the manager stores the user, the login completes: the user property
   * holds the user and the record holds the serialized user.
   */
  lemma LogInCompletes(req: Request, user: JsValue, session: JsValue, done: bool)
    requires req.passport.Some? && WantsSession(session)
    requires SessionManagers.Stored(SessionManagers.ManagerOf(req.passport.value.instance), SetProp(req, UserProperty(req), user), user)
    ensures LogIn(req, user, session, done).1 == SessionManagers.Completed(done)
    ensures Prop(LogIn(req, user, session, done).0, UserProperty(req)) == user
    ensures UserProperty(LogIn(req, user, session, done).0) == UserProperty(req)
    ensures SessionUser(LogIn(req, user, session, done).0) == Manager(req).serialize(user).value
    ensures LogIn(req, user, session, done).0.helpers == req.helpers
  {
    var req1 := SetProp(req, UserProperty(req), user);
    var s := SessionManagers.LogIn(Manager(req), req1, user, false);
    assert s.1 == Returns;
  }

  /** Logging in and then out leaves an unauthenticated request whose record no longer holds a user. */
  lemma LogInThenLogOut(req: Request, user: JsValue, session: JsValue, done: bool)
    requires req.passport.Some? && WantsSession(session)
    requires SessionManagers.Stored(SessionManagers.ManagerOf(req.passport.value.instance), SetProp(req, UserProperty(req), user), user)
    ensures var out := LogOut(LogIn(req, user, session, done).0, done).0;
              && IsUnauthenticated(out)
              && SessionUser(out) == Undefined
              && WellFormed(out)
              && Record(out) == Some(SessionManagers.FieldsOrEmpty(req) - {"user"})
  {
    var mid := LogIn(req, user, session, done).0;
    LogInRecord(req, user, session, done);
    assert Record(mid).value - {"user"} == SessionManagers.FieldsOrEmpty(req) - {"user"};
  }

  /** A completed login leaves a well-formed request whose record is the old one with `user` set. */
  lemma LogInRecord(req: Request, user: JsValue, session: JsValue, done: bool)
    requires req.passport.Some? && WantsSession(session)
    requires SessionManagers.Stored(SessionManagers.ManagerOf(req.passport.value.instance), SetProp(req, UserProperty(req), user), user)
    ensures var mid := LogIn(req, user, session, done).0;
            && WellFormed(mid)
            && Record(mid) == Some(SessionManagers.FieldsOrEmpty(req)["user" := Manager(req).serialize(user).value])
  {
    var req1 := SetProp(req, UserProperty(req), user);
    assert Record(req1) == Record(req);
    var s := SessionManagers.LogIn(Manager(req), req1, user, false);
    assert s.1 == Returns;
  }
}

=== FILE: session_manager.dfy ===
/**
 * The session manager (lib/sessionmanager.js): stores the serialized user in
 * the login-session record and links that record into the host session.
 */
module SessionManagers {
  import opened JsValues
  import opened Chains
  import opened Authenticators
  import opened Http

  /** `_key` and `_serializeUser`; the serializer is seen through the promise it settles. */
  datatype SessionManager = SessionManager(key: string, serialize: JsValue -> Settlement)

  /** The two ways the constructor is called: `(serializeUser)` or `(options, serializeUser)`. */
  datatype ManagerArgs =
    | SerializerOnly(serialize: JsValue -> Settlement)
    | WithOptions(key: string, serialize: JsValue -> Settlement)   // key "" stands for a missing or falsy option

  const DefaultKey: string := "passport"

  /** `new SessionManager(options, serializeUser)`: the key is `options.key || 'passport'`. */
  function NewSessionManager(args: ManagerArgs): (m: SessionManager)
    ensures args.SerializerOnly? ==> m.key == DefaultKey
    ensures args.WithOptions? && args.key != "" ==> m.key == args.key
    ensures args.WithOptions? && args.key == "" ==> m.key == DefaultKey
    ensures m.serialize == args.serialize
  {
    match args
    case SerializerOnly(f) => SessionManager(DefaultKey, f)
    case WithOptions(k, f) => SessionManager(if k != "" then k else DefaultKey, f)
  }

  /**
   * The manager an authenticator builds in `init`: keyed by the authenticator's
   * key, serializing through the authenticator's serializer chain.
   */
  function ManagerOf(a: Authenticator): (m: SessionManager)
    ensures a.key != "" ==> m.key == a.key
    ensures forall u :: m.serialize(u) == AsPromise(Resolve(SerializeChain, a.serializers, u))
  {
    NewSessionManager(WithOptions(a.key, u => AsPromise(Resolve(SerializeChain, a.serializers, u))))
  }

  /** The fields the record has before a write: an absent record is a fresh `{}`. */
  function FieldsOrEmpty(req: Request): map<string, JsValue> {
    if Record(req).Some? then Record(req).value else map[]
  }

  const NoScratch: JsValue := TypeErrorValue("Cannot read properties of undefined (reading 'session')")
  const PrimitiveRecord: JsValue := TypeErrorValue("Cannot create property 'user' on a primitive value")

  /** The signal a successful helper gives: its callback with no arguments, or plain completion. */
  function Completed(cb: bool): Signal {
    if cb then CallsBack([]) else Returns
  }

  /** The manager's `logIn` finished without error. */
  predicate Stored(m: SessionManager, req: Request, user: JsValue) {
    && m.serialize(user).Resolved?
    && req.passport.Some?
    && !req.passport.value.record.Primitive?
  }

  /**
   * `logIn(req, user, cb)`: serialize; on failure report through `cb` or
   * reject; otherwise set `user` on the record (creating `{}` when there is
   * none), create the host session when missing, and store the record under
   * the manager's key.
   */
  function LogIn(m: SessionManager, req: Request, user: JsValue, cb: bool): (r: (Request, Signal))
    ensures m.serialize(user).Pending? ==> r == (req, Hangs)
    ensures m.serialize(user).Rejected? ==>
              r == (req, if cb then CallsBack([m.serialize(user).reason]) else Rejects(m.serialize(user).reason))
    ensures m.serialize(user).Resolved? && req.passport.None? ==> r == (req, Rejects(NoScratch))
    ensures (m.serialize(user).Resolved? && req.passport.Some? && req.passport.value.record.Primitive?)
              ==> r == (req, Rejects(PrimitiveRecord))
    ensures Stored(m, req, user) <==> r.1 == Completed(cb)
    ensures Stored(m, req, user) ==> (
              && WellFormed(r.0)
              && r.0.passport.Some?
              && r.0.passport.value.record == Linked(m.key)
              && r.0.passport.value.instance == req.passport.value.instance
              && Record(r.0) == Some(FieldsOrEmpty(req)["user" := m.serialize(user).value])
              && SessionUser(r.0) == m.serialize(user).value
              && HostValue(r.0, m.key) == Obj(Record(r.0).value)
              && r.0.props == req.props && r.0.helpers == req.helpers && r.0.flashes == req.flashes
              && (req.session.Some? ==> r.0.session.value.canSave == req.session.value.canSave))
    ensures Stored(m, req, user) ==>
              forall k :: k != m.key && req.passport.value.record != Linked(k) ==> HostValue(r.0, k) == HostValue(req, k)
  {
    match m.serialize(user)
    case Pending => (req, Hangs)
    case Rejected(e) => (req, if cb then CallsBack([e]) else Rejects(e))
    case Resolved(obj) =>
      if req.passport.None? then (req, Rejects(NoScratch))
      else if req.passport.value.record.Primitive? then (req, Rejects(PrimitiveRecord))
      else
        var record := req.passport.value.record;
        var fields := FieldsOrEmpty(req)["user" := obj];
        var host := if req.session.Some? then req.session.value else HostSession(map[], false);
        var data := host.data[m.key := Obj(fields)];
        // The record object stays stored wherever it was linked before.
        var data' := if record.Linked? then data[record.key := Obj(fields)] else data;
        var req' := req.(passport := Some(req.passport.value.(record := Linked(m.key))),
                         session := Some(host.(data := data')));
        (req', Completed(cb))
  }

  /** `logOut(req, cb)`: delete `user` from the record when there is one; always completes. */
  function LogOut(req: Request, cb: bool): (r: (Request, Signal))
    ensures r.1 == Completed(cb)
    ensures SessionUser(r.0) == Undefined
    ensures Record(req).Some? ==> Record(r.0) == Some(Record(req).value - {"user"})
    ensures Record(req).None? ==> r.0 == req
    ensures r.0.passport.Some? <==> req.passport.Some?
    ensures req.passport.Some? ==> r.0.passport.value.instance == req.passport.value.instance
    ensures r.0.props == req.props && r.0.helpers == req.helpers && r.0.flashes == req.flashes
    ensures WellFormed(req) ==> WellFormed(r.0)
    ensures forall k :: (req.passport.None? || req.passport.value.record != Linked(k)) ==> HostValue(r.0, k) == HostValue(req, k)
  {
    var req' := if Record(req).Some? then WithRecord(req, Record(req).value - {"user"}) else req;
    (req', Completed(cb))
  }

  /** Logging in twice with the same user leaves the request as one login does. */
  lemma LogInIdempotent(m: SessionManager, req: Request, user: JsValue, cb: bool)
    requires Stored(m, req, user)
    ensures Stored(m, LogIn(m, req, user, cb).0, user)
    ensures LogIn(m, LogIn(m, req, user, cb).0, user, cb) == LogIn(m, req, user, cb)
  {
    var once := LogIn(m, req, user, cb).0;
    var fields := FieldsOrEmpty(req)["user" := m.serialize(user).value];
    assert FieldsOrEmpty(once) == fields;
    assert fields["user" := m.serialize(user).value] == fields;
    var host := once.session.value;
    assert host.data[m.key := Obj(fields)] == host.data;
  }

  /**
   * Logging out after logging in removes exactly the serialized user: the
   * record keeps every other field it had, and stays stored under the key.
   */
  lemma LogOutUndoesLogIn(m: SessionManager, req: Request, user: JsValue, cb: bool)
    requires Stored(m, req, user)
    ensures Record(LogOut(LogIn(m, req, user, cb).0, cb).0) == Some(FieldsOrEmpty(req) - {"user"})
    ensures SessionUser(LogOut(LogIn(m, req, user, cb).0, cb).0) == Undefined
    ensures HostValue(LogOut(LogIn(m, req, user, cb).0, cb).0, m.key) == Obj(FieldsOrEmpty(req) - {"user"})
  {
    var fields := FieldsOrEmpty(req)["user" := m.serialize(user).value];
    assert fields - {"user"} == FieldsOrEmpty(req) - {"user"};
  }
}

=== FILE: session_strategy.dfy ===
/**
 * The built-in session strategy (lib/strategies/session.js): restores the
 * logged-in user from the login-session record on every request.
 */
module SessionStrategy {
  import opened JsValues
  import opened Chains
  import opened Authenticators
  import opened Http

  /** The action a strategy took, and the request as it left it. */
  datatype Acted = Acted(action: Action, req: Request)

  /** The record holds a user worth deserializing: truthy, or exactly 0. */
  predicate HasStoredUser(su: JsValue) {
    Truthy(su) || su == Num(0)
  }

  /**
   * `authenticate(req)` with `deserialize` standing for the bound
   * `deserializeUser`, seen through the promise it settles.
   */
  function Authenticate(deserialize: JsValue -> Settlement, req: Request): (r: Acted)
    ensures r.action.Pass? || r.action.Error? || r.action.Silent?
    ensures req.passport.None? ==> r == Acted(Error(NotInitialized), req)
    ensures (req.passport.Some? && !HasStoredUser(SessionUser(req))) ==> r == Acted(Pass, req)
    ensures (req.passport.Some? && HasStoredUser(SessionUser(req))) ==>
              match deserialize(SessionUser(req))
              case Pending => r == Acted(Silent, req)
              case Rejected(e) => r == Acted(Error(e), req)
              case Resolved(u) =>
                && r.action == Pass
                && (Truthy(u) ==> (
                      && Prop(r.req, UserProperty(req)) == u
                      && r.req.(props := req.props) == req
                      && (forall p :: p != UserProperty(req) ==> Prop(r.req, p) == Prop(req, p))))
                && (!Truthy(u) ==> (
                      && SessionUser(r.req) == Undefined
                      && Record(r.req) == Some(Record(req).value - {"user"})
                      && r.req.props == req.props
                      && r.req.passport.Some? && r.req.passport.value.instance == req.passport.value.instance))
    ensures WellFormed(req) ==> WellFormed(r.req)
    ensures UserProperty(r.req) == UserProperty(req)
  {
    if req.passport.None? then Acted(Error(NotInitialized), req)
    else
      var su := SessionUser(req);
      if !HasStoredUser(su) then Acted(Pass, req)
      else
        match deserialize(su)
        case Pending => Acted(Silent, req)
        case Rejected(e) => Acted(Error(e), req)
        case Resolved(u) =>
          if !Truthy(u) then Acted(Pass, WithRecord(req, Record(req).value - {"user"}))
          else Acted(Pass, SetProp(req, UserProperty(req), u))
  }

  /** The strategy as the authenticator registers it: bound to its deserializer chain. */
  function Restore(a: Authenticator, req: Request): Acted {
    Authenticate(u => AsPromise(Resolve(DeserializeChain, a.deserializers, u)), req)
  }

  /**
   * Restoring twice settles: once the user property holds the restored user,
   * a second run sets it to the same value, and once a stale user has been
   * dropped, a second run passes without consulting the deserializers.
   */
  lemma RestoreSettles(deserialize: JsValue -> Settlement, req: Request)
    requires Authenticate(deserialize, req).action == Pass
    ensures Authenticate(deserialize, Authenticate(deserialize, req).req) == Authenticate(deserialize, req)
  {
    var once := Authenticate(deserialize, req).req;
    if req.passport.Some? && HasStoredUser(SessionUser(req)) {
      var u := deserialize(SessionUser(req)).value;
      if Truthy(u) {
        assert SessionUser(once) == SessionUser(req);
        assert once.props[UserProperty(req) := u] == once.props;
      }
    }
  }
}
